=== FILE: README.md ===
# og-barber day ledger — a Dafny model

This project models the bookkeeping core of the og-barber application. A barbershop keeps one record per day in a Redis-style list, the `registrosDia` key of `@vercel/kv`. Each day record holds:

- every barber's service lines, plus optional special cuts and withdrawals;
- an income section (`ingresos`);
- an expense section (`egresos`).

Around that list sit these pieces:

- **List-backed stores.** Three lists: day records, single cuts (`cortes`) and the roster of barbers (`barberos`). A `precios` key holds the current unit prices.
- **Section merge.** Income and expenses are each written into the first record of a date.
- **Routes.** The ingresos, egresos and precios routes validate the request, fill in defaults and clamp amounts before writing.
- **Derived amounts.** The recomputed cut revenue of a day (`calcularCorteEfectivo`) and the per-day totals of the list page.
- **Quick-load page.** Builds a whole day's payload from a form of counts.
- **Dates.** Date-string validation and formatting (`fechas.ts`, `validateDateFormat`).
- **Roster order.** `ordenarBarberos` puts "Bruno" and "Lucas" last.

## How things are modelled

- **Lists and JSON.** A KV list is a `seq`. The head of the sequence is the head of the list:
  - `lpush` prepends;
  - `lrange 0 -1` reads the whole sequence;
  - `del` resets it to `[]`.

  An element is either text still to be parsed or a value the client already decoded. `JSON.parse` and `JSON.stringify` are function parameters. The round trip `parse(serialize(v)) == v` is a hypothesis (`KvList.RoundTrips`) of the lemmas that need it.
- **Numbers.** JavaScript numbers are modelled as unbounded integers. Two kinds of non-integer value occur. Withdrawals typed on the quick-load page may be fractional; the model does not keep the fraction (see `CargaRapida.FormData` under "Left out"). The other is NaN: it comes from multiplying a field that a service line of the other shape does not have. NaN is `Money.JsNum.NaN`, and NaN absorbs `+`.
- **Service lines.** A service line has two shapes, because the repository holds two revisions:
  - `SplitLine(tipo, efectivo, mercadoPago)`, from `src/types/registroCortes.ts`;
  - `PricedLine(tipo, cantidad, precio)`, read by `src/utils/ingresosFromDB.ts`.

  Each function reads exactly the fields its source reads. So `calcularCorteEfectivo` is NaN on a split line, and the list page's totals are NaN on a priced line.
- **Persistence.** `upsertRegistroDiaKV` is not modelled. Each write function stops at the record it hands to it.
- **Route handlers.** Each handler is a pure function returning `Result<…, ApiError>`. The checks run in the source's order, and the first failure decides the error.
- **Dates.** `new Date(y, m0, d)` is modelled in two parts:
  - `Fechas.ConstructorYear`: years 0..99 become 1900..1999 (ECMAScript, section 21.4.2.1);
  - `Fechas.Normalize`: day roll-over and roll-back across months.

  `new Date("YYYY-MM-DD").getTime()` is the UTC midnight of that day, counted from 1970-01-01 (`RegistrosPage.TimeValue`).

How the program stores and prices a day:

- `addRegistroDiaKV` prepends and never replaces, so records of the same date coexist (`RegistrosDia.AddKeepsDuplicates`). Every reader takes the first one. The `POST /api/registros-dia` route uses this call, and the quick-load page posts a whole new day through it.
- Service lines are read in whichever shape they were stored, and no reader consults the stored prices of the `precios` key:
  - `calcularCorteEfectivo` multiplies the stored `cantidad` by the stored `precio`;
  - the list page multiplies `efectivo` and `mercado_pago` by its own fixed table (11000/12000);
  - the quick-load page shows its own fixed table (12000/13000).

## Model

| member | source | states |
|---|---|---|
| Ledger.FindByFecha | src/utils/ingresosFromDB.ts:10 | the search finds nothing exactly when no record carries the date; otherwise it returns the first record that does |
| Ledger.FindIgnoresLaterDuplicates | src/utils/ingresosFromDB.ts:9-10 | once a record carries the date, records after it (later duplicates) never change what the search returns |
| Money.Max0 | src/app/api/ingresos/route.ts:96-100 | `Math.max(0, x)` is never negative, keeps non-negative amounts and turns negative ones into 0 |
| KvList.DecodeItem | src/utils/registrosDiaFromDB.ts:13-22 | a decoded element passes through as is; a text element survives exactly when it parses to a truthy value, and then as that value |
| KvList.DecodeAll | src/utils/registrosDiaFromDB.ts:11-23 | the read is never longer than the raw list, every value it returns comes from some raw element, and nothing is lost when every element decodes |
| KvList.DecodeAllAppend | src/utils/registrosDiaFromDB.ts:12-23 | reading a concatenation reads each part in turn, so survivors keep list order |
| KvList.DecodeAllDropsUnparsable | src/utils/registrosDiaFromDB.ts:15-19 | a text that throws or parses to a falsy value is dropped wherever it sits, and nothing else changes |
| KvList.DecodeAllKeepsDecoded | src/utils/registrosDiaFromDB.ts:21-23 | an already-decoded, truthy element comes through in its place |
| KvList.PushThenRead | src/utils/registrosDiaFromDB.ts:6-23 | given the JSON round trip, pushing a serialized value and reading back yields that value first, then the previous read |
| RegistrosDia.AddRegistroDia | src/utils/registrosDiaFromDB.ts:6-8 | the add prepends exactly one serialized element and leaves the existing elements unchanged |
| RegistrosDia.ReadRegistrosDia | src/utils/registrosDiaFromDB.ts:10-24 | the read is no longer than the list and only returns values decoded from its elements |
| RegistrosDia.AddThenRead | src/utils/registrosDiaFromDB.ts:6-24 | an add followed by a read returns the new record first, then the previous read |
| RegistrosDia.AddKeepsDuplicates | src/app/api/registros-dia/route.ts:12-16 | posting a record whose date is already stored keeps the old one, adds one more record of that date, and the search now finds the new one |
| CortesKv.Stamped | src/utils/cortesKv.ts:9 | the stored entry carries the write time as its date and the caller's type, barber and payment method |
| CortesKv.AddCorte | src/utils/cortesKv.ts:6-11 | the add prepends exactly one serialized, stamped entry and leaves the others unchanged |
| CortesKv.ReadCortes | src/utils/cortesKv.ts:13-27 | the read is no longer than the list and only returns values decoded from its elements |
| CortesKv.AddCorteThenRead | src/utils/cortesKv.ts:6-27 | given the JSON round trip, reading after an add returns the stamped entry first, then the previous read |
| CortesKv.ReadCortesOrder | src/utils/cortesKv.ts:14-26 | the read keeps list order over any split of the list, and an unparsable element is dropped in place |
| BarberosDb.AddBarbero | src/utils/barberosFromDB.ts:10-12 | the name becomes the head, the rest is unchanged, and the name's count grows by one even when it was already there |
| BarberosDb.Without | src/utils/barberosFromDB.ts:16 | the filter removes every occurrence of the name, keeps every other name's count, and changes nothing when the name is absent |
| BarberosDb.WithoutAppend | src/utils/barberosFromDB.ts:16 | the filter distributes over any split of the list, so the survivors keep their relative order |
| BarberosDb.WithoutOnlyName | src/utils/barberosFromDB.ts:18-19 | deleting the only name(s) left leaves the empty list |
| BarberosDb.WithoutIdempotent | src/utils/barberosFromDB.ts:14-25 | deleting the same name twice is the same as deleting it once |
| BarberosDb.DeleteBarbero | src/utils/barberosFromDB.ts:14-25 | deleting the key and then pushing the survivors from last to first rebuilds exactly the filtered list, in its original order |
| IngresosDb.LineAmount | src/utils/ingresosFromDB.ts:21 | a line contributes a number exactly when it carries `cantidad` and `precio`; a split-shape line contributes NaN |
| IngresosDb.CalcularCorteEfectivo | src/utils/ingresosFromDB.ts:8-30 | 0 when no record carries the date; for the first record of the date, Σ cantidad × stored precio over all lines of all barbers plus Σ monto of the special cuts when every line is priced, NaN otherwise; no price configuration is read |
| IngresosDb.ZeroCountDayIsZero | src/utils/ingresosFromDB.ts:16-29 | a day whose priced lines all have count 0 and that has no special cuts is worth 0 |
| IngresosDb.ReadIngresos | src/utils/ingresosFromDB.ts:35-39 | the income of the first record of the date; null when there is no such record or it has no income |
| IngresosDb.WriteIngresos | src/utils/ingresosFromDB.ts:45-66 | the record handed to the upsert carries the date and the new income; a new date gets no barbers and no expenses; an existing record keeps its barbers and expenses |
| EgresosDb.ReadEgresos | src/utils/egresosFromDB.ts:7-11 | the expenses of the first record of the date; null when there is no such record or it has no expenses |
| EgresosDb.WriteEgresos | src/utils/egresosFromDB.ts:17-38 | the record handed to the upsert carries the date and the new expenses; a new date gets no barbers and no income; an existing record keeps its barbers and income |
| EgresosDb.EgresosThenIngresos | src/utils/egresosFromDB.ts:29-35 | merging expenses and then income into a found record gives both new sections, the same date and the original barbers |
| EgresosDb.WriteEgresosThenIngresos | src/utils/egresosFromDB.ts:17-38 | once the first write is the first record of its date, writing expenses and then income for that date, through the stores' own search, yields one record with both sections and the day's original barbers |
| ApiHelpers.ValidateDateFormat | src/utils/apiHelpers.ts:36-38 | the regex accepts exactly the ten-character strings of four digits, dash, two digits, dash, two digits |
| ApiHelpers.ShapeOnly | src/utils/apiHelpers.ts:37 | only the shape is checked: month 13 / day 45 passes, while an unpadded month or a slash separator fails |
| Api.CheckFecha | src/app/api/ingresos/route.ts:9-16 | a missing or empty date gives 'Fecha requerida' before any format check; a present but malformed one gives the format error; otherwise the date passes |
| Api.PresenceBeforeFormat | src/app/api/egresos/route.ts:48-55 | the format error is only ever reported for a present date, and the empty string counts as missing |
| IngresosRoute.GetIngresos | src/app/api/ingresos/route.ts:5-47 | the date errors come first; after that the answer always carries the recomputed revenue; without stored income every other amount is 0; with it the stored amounts are answered, with a missing `cortesEfectivo`/`cortesMP` read as 0 |
| IngresosRoute.PostIngresos | src/app/api/ingresos/route.ts:49-111 | the errors come in the order date present, date format, number types, then sum; a write happens exactly when every check passes and the raw `cortesEfectivo + cortesMP` equals the recomputed revenue |
| IngresosRoute.PostIngresosStores | src/app/api/ingresos/route.ts:94-103 | an accepted POST stores the recomputed revenue and every other amount as max(0, input), on the requested date, with the day's barbers and expenses untouched |
| IngresosRoute.StoredSplitCoversCorte | src/app/api/ingresos/route.ts:87-101 | since the clamp comes after the sum check, the stored split is at least the revenue, and equals it exactly when neither submitted split amount was negative |
| IngresosRoute.SplitLinesBlockPost | src/app/api/ingresos/route.ts:84-92 | a day whose revenue is NaN (it holds a split-shape line) refuses every well-formed POST with the sum error |
| IngresosRoute.OneCutDay | src/utils/ingresosFromDB.ts:16-29 | a day holding one priced cut at 12000 is worth 12000 |
| IngresosRoute.NegativeOffsetIsStoredAsZero | src/app/api/ingresos/route.ts:87-101 | on that day, −5000 cash plus 17000 Mercado Pago passes the sum check and is stored as 0 and 17000 |
| EgresosRoute.GetEgresos | src/app/api/egresos/route.ts:5-41 | the date errors come first; then the stored expenses are returned unchanged, or all four amounts are 0 when none are stored |
| EgresosRoute.PostEgresos | src/app/api/egresos/route.ts:43-98 | the errors come in the order date present, date format, both sections present, number types; a write happens exactly when all pass |
| EgresosRoute.PostEgresosStores | src/app/api/egresos/route.ts:79-90 | an accepted POST stores each of the four amounts as max(0, v) on the requested date, with barbers and income untouched |
| IngresosRoute.PostThenGet | src/app/api/ingresos/route.ts:17-43 | once the written record is the first of its date, GET answers the revenue recomputed before the write and the clamped amounts that were posted |
| EgresosRoute.PostThenGet | src/app/api/egresos/route.ts:19-35 | once the written record is the first of its date, GET answers exactly the clamped amounts that were posted |
| Precios.ReadPrecios | src/utils/preciosFromDB.ts:15-23 | stored prices are returned unchanged and the store is not touched; an empty store returns 12000/13000 and then holds them |
| Precios.ReadTwice | src/utils/preciosFromDB.ts:16-22 | a second read returns what the first returned and changes nothing further |
| Precios.WriteThenRead | src/utils/preciosFromDB.ts:15-27 | a write followed by a read returns what was written |
| Precios.ValidatePrecios | src/app/api/precios/route.ts:12-18 | a non-number gives 'Precios inválidos' before the sign check; a negative price gives the negative-price error; zero passes; accepted prices are exactly the submitted ones |
| Precios.PostPrecios | src/app/api/precios/route.ts:9-22 | a refused POST leaves the store as it was; an accepted one makes the next read return the submitted prices |
| Precios.PostThenGet | src/app/api/precios/route.ts:4-22 | GET after POSTing non-negative prices answers those prices |
| Barberos.Otros | src/utils/barberos.ts:7 | the filter keeps every other name with its count and drops every "Bruno" and "Lucas" |
| Barberos.OrdenarBarberos | src/utils/barberos.ts:6-16 | each pinned name appears once if present in the input, every other name keeps its count, and "Lucas" is last when present |
| Barberos.OtrosAppend | src/utils/barberos.ts:7 | the filter keeps input order: it distributes over any split of the list |
| Barberos.OrdenarLayout | src/utils/barberos.ts:11-13 | the result is the other names in input order, then "Bruno" if present, then "Lucas" if present |
| Barberos.OrdenarLength | src/utils/barberos.ts:6-16 | the result is never longer than the input |
| Barberos.OrdenarIsPermutation | src/utils/barberos.ts:6-16 | with at most one "Bruno" and one "Lucas", the result is a permutation of the input |
| Barberos.OrdenarIdempotent | src/utils/barberos.ts:6-16 | ordering an ordered roster changes nothing |
| Fechas.Normalize | src/utils/fechas.ts:19 | the date the constructor lands on is a real calendar day, and it is the given day when that day already exists |
| Fechas.TwoDigitYearNeverMatches | src/utils/fechas.ts:19-28 | for a year 0..99 the constructed year never equals the parsed one, so the round-trip check refuses it |
| Fechas.CrearFechaLocal | src/utils/fechas.ts:6-32 | the format error comes exactly for strings without the shape; success comes exactly for real calendar days of year ≥ 100, as local midnight of that day |
| Fechas.PadStart2 | src/utils/fechas.ts:44-45 | a string shorter than two characters is padded on the left with '0' to length 2; a longer one is unchanged |
| Fechas.FechaToString | src/utils/fechas.ts:38-47 | an invalid date throws 'Fecha inválida'; a valid one is formatted |
| Fechas.FechaRoundTrip | src/utils/fechas.ts:6-47 | formatting a parsed date gives the original string back for every accepted date with a four-digit year |
| Fechas.February30 | src/utils/fechas.ts:19-28 | 2024-02-30 is refused as an invalid date |
| Fechas.February29NonLeap | src/utils/fechas.ts:19-28 | 2023-02-29 is refused as an invalid date |
| Fechas.February29Leap | src/utils/fechas.ts:19-31 | 2024-02-29 is accepted as local midnight of February 29 |
| Fechas.RangeExamples | src/utils/fechas.ts:14-28 | month 13 and day 00 are refused as invalid dates, not as malformed strings |
| Fechas.TwoDigitYearExample | src/utils/fechas.ts:19-28 | 0099-01-01 is refused because the constructor reads the year as 1999 |
| Fechas.Year999Accepted | src/utils/fechas.ts:11-31 | 0999-01-01 is accepted as year 999 |
| Fechas.YearNotPadded | src/utils/fechas.ts:43-46 | year 999 is formatted without padding, as "999-01-01" |
| RegistrosPage.CalcularTotales | src/app/registros-dia/page.tsx:8-20 | when every line is split, cash is Σ efectivo × price and MP is Σ mercado_pago × price over all lines of all barbers, at 11000/12000; one priced line makes both NaN |
| RegistrosPage.TotalCountsEveryCut | src/app/registros-dia/page.tsx:37-38 | the shown total is every cut of the day, whichever way it was paid, at the page's prices; NaN as soon as one line is priced |
| RegistrosPage.BarbersSumAppend | src/app/registros-dia/page.tsx:12-18 | the sums are additive over any split of the day's barbers |
| RegistrosPage.ZeroCountsAddNothing | src/app/registros-dia/page.tsx:13-17 | a barber whose lines all have zero counts adds nothing to either total |
| RegistrosPage.ZeroCountDayTotals | src/app/registros-dia/page.tsx:8-20 | a day with no barbers, or whose split lines all have zero counts, shows cash 0 and Mercado Pago 0 |
| RegistrosPage.EarlierDayEarlierTime | src/app/registros-dia/page.tsx:26 | an earlier calendar day has the smaller `getTime()` |
| RegistrosPage.TimeOrderIsCalendarOrder | src/app/registros-dia/page.tsx:26 | `getTime()` orders real dates exactly as the calendar does, in both directions, and is equal only for the same day |
| RegistrosPage.Insert | src/app/registros-dia/page.tsx:26 | inserting into a newest-first list keeps it newest first and adds exactly that record |
| RegistrosPage.SortNewestFirst | src/app/registros-dia/page.tsx:26 | the sorted list is a permutation of the read with no record older than one after it |
| RegistrosPage.SortedByCalendar | src/app/registros-dia/page.tsx:26 | in the sorted list no date comes earlier in the calendar than a date after it |
| CargaRapida.LoadRoster | src/app/carga-rapida/page.tsx:38-57 | the loaded roster is exactly `ordenarBarberos` of the fetched names, holding every fetched name, with "Lucas" last when present; every name starts with a zero row |
| CargaRapida.LoadRosterLayout | src/app/carga-rapida/page.tsx:38-44 | the loaded roster has the other names first in fetched order with their duplicates, then "Bruno" once, then "Lucas" once and last |
| CargaRapida.RowTotals | src/app/carga-rapida/page.tsx:130-154 | a row's general total is cuts × 12000 plus cut-and-beard × 13000 plus both withdrawals; a name without a row totals 0 |
| CargaRapida.KeptNames | src/app/carga-rapida/page.tsx:160-164 | a name is kept exactly when it is in the roster, has a row, and has at least one cut of either kind |
| CargaRapida.KeptNamesAppend | src/app/carga-rapida/page.tsx:160-164 | the filter keeps roster order over any split of the roster |
| CargaRapida.BarberEntry | src/app/carga-rapida/page.tsx:165-190 | an entry holds both kinds as cash with no Mercado Pago, and a withdrawal only when it is positive |
| CargaRapida.Entries | src/app/carga-rapida/page.tsx:165-190 | one entry per kept name, in the same order |
| CargaRapida.HandleGuardar | src/app/carga-rapida/page.tsx:156-200 | the alert comes exactly when no roster name is kept; otherwise the payload has the chosen date, no sections, and one entry per kept barber in roster order |
| CargaRapida.WithdrawalsOnlyAreDropped | src/app/carga-rapida/page.tsx:161-164 | a barber with withdrawals but no cut is left out of the payload |
| CargaRapida.FreshFormSavesNothing | src/app/carga-rapida/page.tsx:45-53 | saving the rows the page starts with only raises the alert |
| CargaRapida.PayloadOnListPage | src/app/carga-rapida/page.tsx:172-189 | read back on the list page, a saved quick load is all cash at 11000/12000, and its Mercado Pago total is 0 |
| CargaRapida.PriceTablesDisagree | src/app/carga-rapida/page.tsx:22-23 | one cut shows 12000 on the quick-load page and 11000 once saved and listed |

## Left out

- `CargaRapida.FormData`: the withdrawal inputs are read with `parseFloat(...) || 0` and may be fractional, such as 1500.5; the model keeps them as integers, so the fraction is lost in the row totals and the saved payload. The cut counts are read with `parseInt(...) || 0` and are whole numbers.
- The `isNaN` checks of the ingresos and egresos routes ('Todos los campos deben ser números válidos') are not modelled. A NaN body value cannot be written in JSON, so the check cannot fire on a parsed body.
- The sum-mismatch message is not modelled. It is built with `toLocaleString('es-AR')`, so `Api.ApiError.SumaNoCoincide` carries the three amounts instead of a text.
- These failures are outside the pure logic and are not modelled: `request.json()` failing, the 500 answers of the `catch` blocks, and KV I/O errors.
- `upsertRegistroDiaKV` is not modelled. Each write function stops at the record it hands to it.
- Concurrency between requests (the read-modify-write races of the list rebuild and of the merges) is not modelled. Every operation is one atomic step on a value.
- The clock in `addCorteKV` (`new Date().toISOString()`) is a parameter `now`. The date of the quick-load page (`today`) is a parameter `fecha`.
- Time zones and daylight saving are not modelled: `crearFechaLocal` is modelled by calendar fields and `setHours(0, 0, 0, 0)` as zero time fields.
- `Fechas.FechaToString`: the contract only states the invalid-date case in general. The formatting is stated through `Fechas.FechaRoundTrip`, the worked examples and `Fechas.PadStart2`.
- `Fechas.FechaRoundTrip`: only years 1000..9999 round-trip. `Fechas.YearNotPadded` shows why years 100..999 do not.
- A `JSON.parse` result that is truthy but not a record, such as a number, is treated like any other decoded value. The element type is the record type.
- Non-string `lrange` elements are assumed to be already-decoded records, as the source's cast does.
- `readBarberosKV` returns the list as stored, which is the model's `seq<string>` itself, so it has no member of its own.
- `GET /api/precios` answers `readPreciosKV` unchanged. It is the `precios` field of `Precios.ReadPrecios`.
- Extra fields of the POST body of the precios route would also be stored as given. The model's prices have only the two fields.
- Thin HTTP wrappers are not modelled: `GET /api/registros-dia`, `errorResponse`, `parseJsonSafely` and `isValidNumber`.
- Rendering, focus handling, `getInputValue` and the navigation after saving on the quick-load page are not modelled. Neither is the `es-AR` formatting on the list page.
- `RegistrosPage.SortNewestFirst` requires every date to be a real calendar day. The POST routes check only the shape of a date, so other strings can be stored. How `new Date("YYYY-MM-DD")` treats them depends on the engine: V8 accepts any day 01–31 and rolls the overflow into the next month (2024-02-30 sorts as 2024-03-01), while a month outside 01–12, a day outside 01–31 or a string of another shape gives NaN and leaves the order implementation-defined. The model covers real calendar days only.
- `RegistrosPage.SortNewestFirst`: the contract states a newest-first permutation but not stability. `Array.prototype.sort` is stable, so records with the same date also keep their read order.
- `calcularTotales` in `__tests__/calcularTotales.test.ts` takes a price table and returns `cortes`, `especiales` and withdrawals. That comes from another revision of the page. The model follows `src/app/registros-dia/page.tsx`.
- `ordenarBarberos` has a local copy in `src/app/carga-rapida/page.tsx:26-36` that is identical to `src/utils/barberos.ts:6-16`. Both are modelled by `Barberos.OrdenarBarberos`.
- `calcularCorteEfectivo` takes no price parameter. The model's `IngresosDb.CalcularCorteEfectivo` therefore has none either, so its result depends only on the stored records.

=== FILE: api.dfy ===
/** What the ingresos, egresos and precios routes share: request fields, the 400 errors
    they answer with, and the two-step date check that opens `GET` and `POST`. */
module Api {
  import opened Wrappers
  import opened Money
  import ApiHelpers

  /** A field of a parsed request body, as far as `typeof v !== 'number'` can tell. */
  datatype JsValue = Undefined | Number(n: int) | NotNumber

  /** The validation errors; each is answered with status 400. */
  datatype ApiError =
    | FechaRequerida
    | FormatoFechaInvalido
    | CamposNoNumericos
    | SumaNoCoincide(cortesEfectivo: int, cortesMP: int, corteEfectivo: JsNum)
    | EfectivoYMPRequeridos
    | PreciosInvalidos
    | PreciosNegativos
  {
    function Status(): int
    {
      400
    }

    /** The fixed `error` text of each response. The sum mismatch interpolates the three
        amounts formatted for the `es-AR` locale, so it has no fixed text here. */
    function Message(): string
      requires !SumaNoCoincide?
    {
      match this
      case FechaRequerida => "Fecha requerida"
      case FormatoFechaInvalido => "Formato de fecha inválido. Debe ser YYYY-MM-DD"
      case CamposNoNumericos => "Todos los campos deben ser números"
      case EfectivoYMPRequeridos => "Efectivo y MP son requeridos"
      case PreciosInvalidos => "Precios inválidos"
      case PreciosNegativos => "Los precios no pueden ser negativos"
    }
  }

  /** `if (!fecha)`: absent, null and the empty string are all falsy. */
  predicate FechaPresent(fecha: Option<string>)
  {
    fecha.Some? && fecha.value != ""
  }

  /** The opening of every ingresos/egresos handler: presence first, then the regex.
      On success yields the date string itself. */
  function CheckFecha(fecha: Option<string>): (r: Result<string, ApiError>)
    ensures r.Success? <==> FechaPresent(fecha) && ApiHelpers.HasDateShape(fecha.value)
    ensures r.Success? ==> r.value == fecha.value
    ensures !FechaPresent(fecha) ==> r == Failure(FechaRequerida)
    ensures FechaPresent(fecha) && !ApiHelpers.HasDateShape(fecha.value) ==> r == Failure(FormatoFechaInvalido)
  {
    if !FechaPresent(fecha) then Failure(FechaRequerida)
    else if !ApiHelpers.ValidateDateFormat(fecha.value) then Failure(FormatoFechaInvalido)
    else Success(fecha.value)
  }

  /** The presence check wins over the format check: a missing date is never reported
      as malformed, and a malformed one only once it is present. */
  lemma PresenceBeforeFormat(fecha: Option<string>)
    ensures CheckFecha(fecha) == Failure(FormatoFechaInvalido) ==> FechaPresent(fecha)
    ensures fecha == Some("") ==> CheckFecha(fecha) == Failure(FechaRequerida)
  {
  }
}

=== FILE: api_helpers.dfy ===
/** The `YYYY-MM-DD` shape check: `validateDateFormat` and the identical inline regex
    `/^\d{4}-\d{2}-\d{2}$/` of the routes and of `crearFechaLocal`. */
module ApiHelpers {

  /** One element of an anchored pattern: `\d` (ASCII digit only, the regex has no `u` flag)
      or a literal character. */
  datatype Token = AnyDigit | Literal(c: char)

  /** `^\d{4}-\d{2}-\d{2}$` spelled out token by token. */
  const DatePattern: seq<Token> :=
    [AnyDigit, AnyDigit, AnyDigit, AnyDigit, Literal('-'),
     AnyDigit, AnyDigit, Literal('-'), AnyDigit, AnyDigit]

  predicate IsDigit(c: char)
  {
    '0' <= c <= '9'
  }

  predicate TokenMatches(t: Token, c: char)
  {
    match t
    case AnyDigit => IsDigit(c)
    case Literal(l) => c == l
  }

  /** Anchored match (`^...$`): the pattern consumes the whole string, one character per token. */
  predicate MatchesAnchored(p: seq<Token>, s: string)
    decreases |p|
  {
    if |p| == 0 then |s| == 0
    else |s| > 0 && TokenMatches(p[0], s[0]) && MatchesAnchored(p[1..], s[1..])
  }

  /** The shape stated position by position: length 10, digits at 0-3, 5-6 and 8-9,
      '-' at 4 and 7. Month and day ranges are NOT part of it. */
  predicate HasDateShape(s: string)
  {
    && |s| == 10
    && s[4] == '-' && s[7] == '-'
    && forall i :: 0 <= i < 10 && i != 4 && i != 7 ==> IsDigit(s[i])
  }

  /** An anchored pattern of single-character tokens matches exactly the strings of its
      length whose every character matches the token at that position. */
  lemma {:induction false} MatchesAnchoredPositional(p: seq<Token>, s: string)
    ensures MatchesAnchored(p, s) <==>
            |s| == |p| && forall i :: 0 <= i < |p| ==> TokenMatches(p[i], s[i])
  {
    if |p| > 0 && |s| > 0 {
      MatchesAnchoredPositional(p[1..], s[1..]);
      if |s| == |p| && forall i :: 0 <= i < |p| ==> TokenMatches(p[i], s[i]) {
        assert forall i :: 0 <= i < |p[1..]| ==> TokenMatches(p[1..][i], s[1..][i]) by {
          forall i | 0 <= i < |p[1..]| ensures TokenMatches(p[1..][i], s[1..][i]) {
            assert p[1..][i] == p[i + 1] && s[1..][i] == s[i + 1];
          }
        }
      }
      if MatchesAnchored(p, s) {
        forall i | 0 <= i < |p| ensures TokenMatches(p[i], s[i]) {
          if i > 0 { assert p[i] == p[1..][i - 1] && s[i] == s[1..][i - 1]; }
        }
      }
    }
  }

  /** The date pattern accepts exactly the strings of the date shape. */
  lemma DatePatternIsShape(s: string)
    ensures MatchesAnchored(DatePattern, s) <==> HasDateShape(s)
  {
    MatchesAnchoredPositional(DatePattern, s);
    if |s| == 10 {
      assert (forall i :: 0 <= i < 10 ==> TokenMatches(DatePattern[i], s[i])) <==> HasDateShape(s);
    }
  }

  /** `validateDateFormat(fecha)`: the regex test. */
  function ValidateDateFormat(s: string): (b: bool)
    ensures b <==> HasDateShape(s)
  {
    DatePatternIsShape(s);
    MatchesAnchored(DatePattern, s)
  }

  /** Only the shape is checked: "2024-13-45" (month 13, day 45) is accepted. */
  lemma ShapeOnly()
    ensures ValidateDateFormat("2024-13-45")
    ensures !ValidateDateFormat("2024-1-15") && !ValidateDateFormat("2024/01/15")
  {
    var s := "2024-13-45";
    assert forall i :: 0 <= i < 10 && i != 4 && i != 7 ==> IsDigit(s[i]) by {
      forall i | 0 <= i < 10 && i != 4 && i != 7 ensures IsDigit(s[i]) {
        assert s[i] in "0123456789";
      }
    }
    assert HasDateShape(s);
    assert "2024/01/15"[4] == '/';
  }

  /** The date used by the worked examples has the shape. */
  lemma SampleDateShape()
    ensures HasDateShape("2024-01-15")
  {
    var f := "2024-01-15";
    forall i | 0 <= i < 10 && i != 4 && i != 7 ensures IsDigit(f[i]) {
      assert f[i] in "0123456789";
    }
  }
}

=== FILE: barberos.dfy ===
/** `ordenarBarberos` (utils/barberos.ts, and the identical local copy in the quick-load
    page): every other name first in input order, then "Bruno", then "Lucas". */
module Barberos {

  const Bruno: string := "Bruno"
  const Lucas: string := "Lucas"

  /** The two names the ordering moves to the end. */
  predicate Pinned(b: string)
  {
    b == Bruno || b == Lucas
  }

  /** `barberos.filter((b) => b !== "Bruno" && b !== "Lucas")`. */
  function Otros(s: seq<string>): (r: seq<string>)
    ensures forall i :: 0 <= i < |r| ==> !Pinned(r[i])
    ensures forall x :: multiset(r)[x] == if Pinned(x) then 0 else multiset(s)[x]
  {
    if |s| == 0 then []
    else
      assert s == [s[0]] + s[1..];
      if Pinned(s[0]) then Otros(s[1..]) else [s[0]] + Otros(s[1..])
  }

  /** The ordering itself: `find` yields the pinned name once however often it occurs. */
  function OrdenarBarberos(s: seq<string>): (r: seq<string>)
    ensures multiset(r)[Bruno] == (if Bruno in s then 1 else 0)
    ensures multiset(r)[Lucas] == (if Lucas in s then 1 else 0)
    ensures forall x :: !Pinned(x) ==> multiset(r)[x] == multiset(s)[x]
    ensures Lucas in s ==> |r| > 0 && r[|r| - 1] == Lucas
  {
    Otros(s) + PinnedTail(s)
  }

  /** The filter keeps input order: it distributes over any split of the list. */
  lemma {:induction false} OtrosAppend(a: seq<string>, b: seq<string>)
    ensures Otros(a + b) == Otros(a) + Otros(b)
  {
    if |a| > 0 {
      assert (a + b)[0] == a[0];
      assert (a + b)[1..] == a[1..] + b;
      OtrosAppend(a[1..], b);
    } else {
      assert a + b == b;
    }
  }

  /** A list without pinned names is its own filter. */
  lemma {:induction false} OtrosOfUnpinned(s: seq<string>)
    requires forall i :: 0 <= i < |s| ==> !Pinned(s[i])
    ensures Otros(s) == s
  {
    if |s| > 0 {
      OtrosOfUnpinned(s[1..]);
    }
  }

  /** Layout of the result: the other names in input order, then only pinned names, with
      "Bruno" (if present) right after them and "Lucas" (if present) last. */
  lemma OrdenarLayout(s: seq<string>)
    ensures var r := OrdenarBarberos(s);
            var k := |Otros(s)|;
            && k <= |r| && r[..k] == Otros(s)
            && (forall i :: k <= i < |r| ==> Pinned(r[i]))
            && (Bruno in s ==> r[k] == Bruno)
            && |r| == k + (if Bruno in s then 1 else 0) + (if Lucas in s then 1 else 0)
  {
  }

  /** The result is never longer than the input: each pinned name present takes at least
      one input position that the filter dropped. */
  lemma {:induction false} OrdenarLength(s: seq<string>)
    ensures |OrdenarBarberos(s)| <= |s|
  {
    OtrosLength(s);
  }

  lemma {:induction false} OtrosLength(s: seq<string>)
    ensures |Otros(s)| + (if Bruno in s then 1 else 0) + (if Lucas in s then 1 else 0) <= |s|
  {
    if |s| > 0 {
      assert s == [s[0]] + s[1..];
      OtrosLength(s[1..]);
      assert forall x :: x in s <==> x == s[0] || x in s[1..];
    }
  }

  /** With at most one "Bruno" and one "Lucas" (in particular, for a duplicate-free
      roster) the ordering is a permutation of its input. */
  lemma OrdenarIsPermutation(s: seq<string>)
    requires multiset(s)[Bruno] <= 1 && multiset(s)[Lucas] <= 1
    ensures multiset(OrdenarBarberos(s)) == multiset(s)
  {
    var r := OrdenarBarberos(s);
    forall x ensures multiset(r)[x] == multiset(s)[x] {
      if x == Bruno || x == Lucas {
        assert x in s <==> multiset(s)[x] > 0;
      }
    }
  }

  /** A list of pinned names only is filtered away entirely. */
  lemma {:induction false} OtrosOfPinned(s: seq<string>)
    requires forall i :: 0 <= i < |s| ==> Pinned(s[i])
    ensures Otros(s) == []
  {
    if |s| > 0 {
      OtrosOfPinned(s[1..]);
    }
  }

  /** The appended tail of pinned names. */
  function PinnedTail(s: seq<string>): (t: seq<string>)
    ensures forall i :: 0 <= i < |t| ==> Pinned(t[i])
    ensures Bruno in t <==> Bruno in s
    ensures Lucas in t <==> Lucas in s
  {
    (if Bruno in s then [Bruno] else []) + (if Lucas in s then [Lucas] else [])
  }

  lemma OtrosOfOrdered(s: seq<string>)
    ensures Otros(Otros(s) + PinnedTail(s)) == Otros(s)
  {
    OtrosAppend(Otros(s), PinnedTail(s));
    OtrosOfUnpinned(Otros(s));
    OtrosOfPinned(PinnedTail(s));
  }

  lemma PinnedTailOfOrdered(s: seq<string>)
    ensures PinnedTail(Otros(s) + PinnedTail(s)) == PinnedTail(s)
  {
    var r := Otros(s) + PinnedTail(s);
    assert Bruno !in Otros(s) && Lucas !in Otros(s);
    assert Bruno in r <==> Bruno in s;
    assert Lucas in r <==> Lucas in s;
  }

  /** Ordering an ordered roster changes nothing. */
  lemma OrdenarIdempotent(s: seq<string>)
    ensures OrdenarBarberos(OrdenarBarberos(s)) == OrdenarBarberos(s)
  {
    var r := Otros(s) + PinnedTail(s);
    assert OrdenarBarberos(s) == r;
    OtrosOfOrdered(s);
    PinnedTailOfOrdered(s);
    assert OrdenarBarberos(r) == Otros(r) + PinnedTail(r);
  }
}

=== FILE: barberos_db.dfy ===
/** `barberosFromDB`: the roster as the `barberos` list of names. */
module BarberosDb {
  import opened KvList

  /** `addBarberoKV`: `lpush` of the name; an existing name is not deduplicated. */
  function AddBarbero(list: seq<string>, nombre: string): (r: seq<string>)
    ensures |r| == |list| + 1 && r[0] == nombre && r[1..] == list
    ensures multiset(r)[nombre] == multiset(list)[nombre] + 1
  {
    LPush(list, nombre)
  }

  /** `barberos.filter((b) => b !== nombre)`. */
  function Without(s: seq<string>, nombre: string): (r: seq<string>)
    ensures nombre !in r
    ensures forall x :: x != nombre ==> multiset(r)[x] == multiset(s)[x]
    ensures nombre !in s ==> r == s
    ensures |r| <= |s|
  {
    if |s| == 0 then []
    else
      assert s == [s[0]] + s[1..];
      if s[0] == nombre then Without(s[1..], nombre)
      else [s[0]] + Without(s[1..], nombre)
  }

  /** The filter keeps relative order: it distributes over any split of the list. */
  lemma {:induction false} WithoutAppend(a: seq<string>, b: seq<string>, nombre: string)
    ensures Without(a + b, nombre) == Without(a, nombre) + Without(b, nombre)
  {
    if |a| > 0 {
      assert (a + b)[0] == a[0];
      assert (a + b)[1..] == a[1..] + b;
      WithoutAppend(a[1..], b, nombre);
    } else {
      assert a + b == b;
    }
  }

  /** Removing a name from a list holding nothing else leaves the empty list. */
  lemma {:induction false} WithoutOnlyName(s: seq<string>, nombre: string)
    requires forall i :: 0 <= i < |s| ==> s[i] == nombre
    ensures Without(s, nombre) == []
  {
    if |s| > 0 {
      WithoutOnlyName(s[1..], nombre);
    }
  }

  /** Deleting twice is deleting once. */
  lemma WithoutIdempotent(s: seq<string>, nombre: string)
    ensures Without(Without(s, nombre), nombre) == Without(s, nombre)
  {
  }

  /** `deleteBarberoKV`: filter, `del`, then `lpush` the survivors from last to first so
      that the rebuilt list reads in the original order. */
  method DeleteBarbero(list: seq<string>, nombre: string) returns (r: seq<string>)
    ensures r == Without(list, nombre)
    ensures nombre !in r
    ensures nombre !in list ==> r == list
  {
    var updated := Without(list, nombre);
    var store: seq<string> := [];
    if |updated| > 0 {
      var reversed := seq(|updated|, k requires 0 <= k < |updated| => updated[|updated| - 1 - k]);
      for i := 0 to |reversed|
        invariant store == updated[|updated| - i..]
      {
        assert updated[|updated| - (i + 1)..] == [updated[|updated| - 1 - i]] + updated[|updated| - i..];
        store := LPush(store, reversed[i]);
      }
    }
    r := store;
  }
}

=== FILE: carga_rapida.dfy ===
/** `carga-rapida/page.tsx`: the quick-load form. One row of counts per barber, the totals
    shown beside each row at the page's own prices, and the day payload `handleGuardar`
    builds for `POST /api/registros-dia`. Rendering, focus handling and the request are
    not part of this model. */
module CargaRapida {
  import opened Wrappers
  import opened Money
  import opened Ledger
  import Barberos
  import RegistrosPage

  /** The quick-load page's price table, which differs from the list page's. */
  const PrecioCorte: int := 12000
  const PrecioCorteYBarba: int := 13000

  /** The alert shown when no barber has a cut. */
  const SinCortes: string := "Debe ingresar al menos un corte para algún barbero"

  /** `BarberoFormData`: the four amounts of one row. The two cut counts are read with
      `parseInt(...) || 0` and are whole numbers; the two withdrawals are read with
      `parseFloat(...) || 0` and may carry a fraction, which this integer model drops. */
  datatype FormData = FormData(cortes: int, corteYBarba: int, retiroEfectivo: int, retiroMP: int)

  /** `formData`: the rows by barber name. */
  type Form = map<string, FormData>

  const ZeroRow: FormData := FormData(0, 0, 0, 0)

  /** The first effect: the roster becomes exactly `ordenarBarberos(data)` and each ordered
      name gets a zero row. So the other names come first in fetched order with their
      duplicates, then "Bruno" once, then "Lucas" once and last. */
  function LoadRoster(data: seq<string>): (r: (seq<string>, Form))
    ensures r.0 == Barberos.OrdenarBarberos(data)
    ensures forall b :: b in r.0 <==> b in data
    ensures forall b :: b in r.1 <==> b in data
    ensures forall b :: b in r.1 ==> r.1[b] == ZeroRow
    ensures Barberos.Lucas in data ==> r.0[|r.0| - 1] == Barberos.Lucas
  {
    var ordered := Barberos.OrdenarBarberos(data);
    assert forall b :: b in ordered <==> b in data by {
      forall b ensures b in ordered <==> b in data {
        assert b in ordered <==> multiset(ordered)[b] > 0;
        assert b in data <==> multiset(data)[b] > 0;
      }
    }
    (ordered, map b | b in ordered :: ZeroRow)
  }

  /** The loaded roster's layout: the other names first in fetched order with their
      duplicates, then "Bruno" once if fetched, then "Lucas" once if fetched. */
  lemma LoadRosterLayout(data: seq<string>)
    ensures var r := LoadRoster(data).0;
            var k := |Barberos.Otros(data)|;
            && k <= |r| && r[..k] == Barberos.Otros(data)
            && |r| == k + (if Barberos.Bruno in data then 1 else 0) + (if Barberos.Lucas in data then 1 else 0)
            && (Barberos.Bruno in data ==> r[k] == Barberos.Bruno)
            && (Barberos.Lucas in data ==> r[|r| - 1] == Barberos.Lucas)
  {
    Barberos.OrdenarLayout(data);
  }

  // ---- The per-row totals ----

  /** `calcularTotalCortes`: 0 for a name without a row. */
  function TotalCortes(form: Form, b: string): int
  {
    if b in form then form[b].cortes * PrecioCorte else 0
  }

  /** `calcularTotalCorteYBarba`. */
  function TotalCorteYBarba(form: Form, b: string): int
  {
    if b in form then form[b].corteYBarba * PrecioCorteYBarba else 0
  }

  /** `calcularTotalCortesGeneral`. */
  function TotalCortesGeneral(form: Form, b: string): int
  {
    TotalCortes(form, b) + TotalCorteYBarba(form, b)
  }

  /** `calcularTotalRetiros`: `(x || 0)` is `x` on whole numbers. */
  function TotalRetiros(form: Form, b: string): int
  {
    if b in form then form[b].retiroEfectivo + form[b].retiroMP else 0
  }

  /** `calcularTotalGeneral`: withdrawals are ADDED to the cut revenue. */
  function TotalGeneral(form: Form, b: string): int
  {
    TotalCortesGeneral(form, b) + TotalRetiros(form, b)
  }

  /** What the row totals amount to in terms of the row: every cut at the quick-load
      prices plus both withdrawals, and 0 for a name without a row. */
  lemma RowTotals(form: Form, b: string)
    ensures b in form ==>
              var d := form[b];
              TotalGeneral(form, b) == d.cortes * 12000 + d.corteYBarba * 13000 + d.retiroEfectivo + d.retiroMP
    ensures b !in form ==> TotalGeneral(form, b) == 0 && TotalCortesGeneral(form, b) == 0
  {
  }

  // ---- handleGuardar ----

  /** The filter of `handleGuardar`: the barber has a row and at least one cut of either kind. */
  predicate Kept(form: Form, b: string)
  {
    b in form && (form[b].cortes > 0 || form[b].corteYBarba > 0)
  }

  /** `barberos.filter(...)`: the kept names in roster order. */
  function KeptNames(bs: seq<string>, form: Form): (ks: seq<string>)
    ensures |ks| <= |bs|
    ensures forall b :: b in ks <==> b in bs && Kept(form, b)
  {
    if |bs| == 0 then []
    else (if Kept(form, bs[0]) then [bs[0]] else []) + KeptNames(bs[1..], form)
  }

  /** The filter keeps roster order: it distributes over any split of the roster. */
  lemma {:induction false} KeptNamesAppend(a: seq<string>, b: seq<string>, form: Form)
    ensures KeptNames(a + b, form) == KeptNames(a, form) + KeptNames(b, form)
  {
    if |a| > 0 {
      assert (a + b)[0] == a[0];
      assert (a + b)[1..] == a[1..] + b;
      KeptNamesAppend(a[1..], b, form);
    } else {
      assert a + b == b;
    }
  }

  /** The `.map(...)` entry of one kept barber: both kinds as cash, none through Mercado
      Pago, and a withdrawal only when it is positive (otherwise `undefined`). */
  function BarberEntry(fecha: string, b: string, d: FormData): (e: BarberDay)
    ensures e.fecha == fecha && e.barbero == b && e.cortesEspeciales.None?
    ensures e.servicios == [SplitLine(Corte, d.cortes, 0), SplitLine(CorteConBarba, d.corteYBarba, 0)]
    ensures e.retiroEfectivo.Some? <==> d.retiroEfectivo > 0
    ensures e.retiroEfectivo.Some? ==> e.retiroEfectivo.value == d.retiroEfectivo
    ensures e.retiroMP.Some? <==> d.retiroMP > 0
    ensures e.retiroMP.Some? ==> e.retiroMP.value == d.retiroMP
  {
    BarberDay(
      fecha, b,
      [SplitLine(Corte, d.cortes, 0), SplitLine(CorteConBarba, d.corteYBarba, 0)],
      None,
      if d.retiroEfectivo > 0 then Some(d.retiroEfectivo) else None,
      if d.retiroMP > 0 then Some(d.retiroMP) else None)
  }

  /** The entries of a list of names that all have a row, in order. */
  function Entries(fecha: string, ks: seq<string>, form: Form): (es: seq<BarberDay>)
    requires forall k :: k in ks ==> k in form
    ensures |es| == |ks|
    ensures forall i :: 0 <= i < |ks| ==> es[i] == BarberEntry(fecha, ks[i], form[ks[i]])
  {
    if |ks| == 0 then []
    else Entries(fecha, ks[..|ks| - 1], form) + [BarberEntry(fecha, ks[|ks| - 1], form[ks[|ks| - 1]])]
  }

  /** `handleGuardar`: the alert when no barber has a cut; otherwise the payload
      `{fecha, barberos}` with one entry per kept barber, in roster order. */
  function HandleGuardar(fecha: string, bs: seq<string>, form: Form): (r: Result<DayRecord, string>)
    ensures r.Failure? <==> forall b :: b in bs ==> !Kept(form, b)
    ensures r.Failure? ==> r.error == SinCortes
    ensures r.Success? ==>
              && r.value.fecha == fecha
              && r.value.ingresos.None? && r.value.egresos.None?
              && |r.value.barberos| == |KeptNames(bs, form)|
              && forall i :: 0 <= i < |r.value.barberos| ==>
                   var k := KeptNames(bs, form)[i];
                   k in form && r.value.barberos[i] == BarberEntry(fecha, k, form[k])
  {
    var ks := KeptNames(bs, form);
    if |ks| == 0 then
      assert forall b :: b in bs ==> !Kept(form, b);
      Failure(SinCortes)
    else
      assert ks[0] in bs && Kept(form, ks[0]);
      Success(DayRecord(fecha, Entries(fecha, ks, form), None, None))
  }

  /** A barber with only withdrawals (no cut of either kind) is left out of the payload,
      withdrawals included. */
  lemma WithdrawalsOnlyAreDropped(fecha: string, bs: seq<string>, form: Form, b: string)
    requires b in form && form[b].cortes <= 0 && form[b].corteYBarba <= 0
    ensures var r := HandleGuardar(fecha, bs, form);
            r.Success? ==> forall i :: 0 <= i < |r.value.barberos| ==> r.value.barberos[i].barbero != b
  {
    var r := HandleGuardar(fecha, bs, form);
    if r.Success? {
      var ks := KeptNames(bs, form);
      forall i | 0 <= i < |r.value.barberos| ensures r.value.barberos[i].barbero != b {
        assert ks[i] in ks;
      }
    }
  }

  /** The rows the page starts with never save: every count is 0. */
  lemma FreshFormSavesNothing(fecha: string, data: seq<string>)
    ensures var (bs, form) := LoadRoster(data);
            HandleGuardar(fecha, bs, form) == Failure(SinCortes)
  {
  }

  // ---- The payload read back by the list page ----

  /** Σ (cortes × `pc` + corteYBarba × `pcb`) over the named rows. */
  function FormSum(ks: seq<string>, form: Form, pc: int, pcb: int): int
    requires forall k :: k in ks ==> k in form
  {
    if |ks| == 0 then 0
    else
      var d := form[ks[|ks| - 1]];
      FormSum(ks[..|ks| - 1], form, pc, pcb) + d.cortes * pc + d.corteYBarba * pcb
  }

  lemma EntrySums(fecha: string, b: string, d: FormData)
    ensures RegistrosPage.LinesSplit(BarberEntry(fecha, b, d).servicios)
    ensures RegistrosPage.LinesSum(BarberEntry(fecha, b, d).servicios, RegistrosPage.Cash) ==
            d.cortes * 11000 + d.corteYBarba * 12000
    ensures RegistrosPage.LinesSum(BarberEntry(fecha, b, d).servicios, RegistrosPage.Mp) == 0
  {
    var ss := BarberEntry(fecha, b, d).servicios;
    assert ss[..1] == [ss[0]];
    assert ss[..1][..0] == [];
    forall ch | ch == RegistrosPage.Cash || ch == RegistrosPage.Mp
      ensures RegistrosPage.LinesSum(ss, ch) ==
              RegistrosPage.Count(ss[0], ch) * 11000 + RegistrosPage.Count(ss[1], ch) * 12000
    {
      assert RegistrosPage.LinesSum(ss[..1], ch) == RegistrosPage.Count(ss[0], ch) * 11000;
    }
  }

  lemma {:induction false} EntriesSums(fecha: string, ks: seq<string>, form: Form)
    requires forall k :: k in ks ==> k in form
    ensures RegistrosPage.BarbersSplit(Entries(fecha, ks, form))
    ensures RegistrosPage.BarbersSum(Entries(fecha, ks, form), RegistrosPage.Cash) == FormSum(ks, form, 11000, 12000)
    ensures RegistrosPage.BarbersSum(Entries(fecha, ks, form), RegistrosPage.Mp) == 0
  {
    var es := Entries(fecha, ks, form);
    if |ks| > 0 {
      var init := ks[..|ks| - 1];
      var last := ks[|ks| - 1];
      assert forall k :: k in init ==> k in ks;
      EntriesSums(fecha, init, form);
      EntrySums(fecha, last, form[last]);
      assert es[..|es| - 1] == Entries(fecha, init, form);
      assert es[|es| - 1] == BarberEntry(fecha, last, form[last]);
      forall i | 0 <= i < |es| ensures RegistrosPage.LinesSplit(es[i].servicios) {
        EntrySums(fecha, ks[i], form[ks[i]]);
      }
    }
  }

  /** Read back on the list page, a saved quick load is all cash: every cut counts at the
      LIST page's prices (11000/12000), not at the 12000/13000 the quick-load page showed,
      and the Mercado Pago total is 0. */
  lemma PayloadOnListPage(fecha: string, bs: seq<string>, form: Form)
    requires HandleGuardar(fecha, bs, form).Success?
    ensures var ks := KeptNames(bs, form);
            RegistrosPage.Totals(HandleGuardar(fecha, bs, form).value) ==
            RegistrosPage.Totales(Num(FormSum(ks, form, 11000, 12000)), Num(0))
  {
    EntriesSums(fecha, KeptNames(bs, form), form);
  }

  /** One cut for one barber: the quick-load page shows 12000, the list page 11000. */
  lemma PriceTablesDisagree(form: Form)
    requires form == map["Joaco" := FormData(1, 0, 0, 0)]
    ensures TotalCortesGeneral(form, "Joaco") == 12000
    ensures RegistrosPage.Totals(HandleGuardar("2025-01-15", ["Joaco"], form).value).efectivo == Num(11000)
  {
    var ks := KeptNames(["Joaco"], form);
    assert Kept(form, "Joaco");
    assert ks == ["Joaco"];
    PayloadOnListPage("2025-01-15", ["Joaco"], form);
    assert ks[..0] == [];
  }
}

=== FILE: cortes_kv.dfy ===
/** `cortesKv`: the `cortes` list of single-cut entries. */
module CortesKv {
  import opened Wrappers
  import opened KvList
  import opened Ledger

  datatype FormaDePago = Efectivo | MercadoPago

  /** `CorteEntry`. */
  datatype CorteEntry = CorteEntry(tipo: ServiceKind, barbero: string, formaDePago: FormaDePago, fecha: Option<string>)

  /** `{ ...corte, fecha: now }`: the entry with its date overwritten by the write time,
      which the model takes as a parameter instead of reading the clock. */
  function Stamped(c: CorteEntry, now: string): (s: CorteEntry)
    ensures s.fecha == Some(now)
    ensures s.tipo == c.tipo && s.barbero == c.barbero && s.formaDePago == c.formaDePago
  {
    c.(fecha := Some(now))
  }

  /** `addCorteKV`: one serialized, stamped element in front of the others. */
  function AddCorte(list: seq<Item<CorteEntry>>, c: CorteEntry, now: string, serialize: CorteEntry -> string): (l: seq<Item<CorteEntry>>)
    ensures |l| == |list| + 1
    ensures l[0] == Text(serialize(Stamped(c, now)))
    ensures l[1..] == list
  {
    LPush(list, Text(serialize(Stamped(c, now))))
  }

  /** `readCortesKV`: the same decode-and-filter pass as the day records. */
  function ReadCortes(list: seq<Item<CorteEntry>>, parse: string -> Parse<CorteEntry>): (cs: seq<CorteEntry>)
    ensures |cs| <= |list|
    ensures forall v :: v in cs ==> exists i :: 0 <= i < |list| && DecodeItem(list[i], parse) == Some(v)
  {
    DecodeAll(list, parse)
  }

  /** Reading after an add: the stamped entry comes first, then the previous read. */
  lemma AddCorteThenRead(list: seq<Item<CorteEntry>>, c: CorteEntry, now: string,
                         parse: string -> Parse<CorteEntry>, serialize: CorteEntry -> string)
    requires RoundTrips(parse, serialize)
    ensures ReadCortes(AddCorte(list, c, now, serialize), parse) == [Stamped(c, now)] + ReadCortes(list, parse)
  {
    PushThenRead(list, Stamped(c, now), parse, serialize);
  }

  /** The read keeps list order over any split of the list, and an element that fails to
      parse is dropped wherever it sits. */
  lemma ReadCortesOrder(a: seq<Item<CorteEntry>>, s: string, b: seq<Item<CorteEntry>>, parse: string -> Parse<CorteEntry>)
    ensures ReadCortes(a + b, parse) == ReadCortes(a, parse) + ReadCortes(b, parse)
    ensures !parse(s).Parsed? ==> ReadCortes(a + [Text(s)] + b, parse) == ReadCortes(a + b, parse)
  {
    DecodeAllAppend(a, b, parse);
    if !parse(s).Parsed? {
      DecodeAllDropsUnparsable(a, s, b, parse);
    }
  }
}

=== FILE: egresos_db.dfy ===
/** `egresosFromDB`: the expense section's read and merge-write. */
module EgresosDb {
  import opened Wrappers
  import opened Ledger
  import IngresosDb

  /** `readEgresosKV`: the expense section of the first record of the date, or null when
      there is no such record or it has no expense section. */
  function ReadEgresos(rs: seq<DayRecord>, fecha: string): (r: Option<Egresos>)
    ensures Absent(rs, fecha) ==> r.None?
    ensures forall i :: FirstWith(rs, fecha, i) ==> r == rs[i].egresos
  {
    match FindByFecha(rs, fecha)
    case None => None
    case Some(d) => d.egresos
  }

  /** The create-or-merge step of `writeEgresosKV`, given what the search found. */
  function WithEgresos(existing: Option<DayRecord>, fecha: string, egresos: Egresos): DayRecord
  {
    match existing
    case None => DayRecord(fecha, [], None, Some(egresos))
    case Some(d) => d.(egresos := Some(egresos))
  }

  /** `writeEgresosKV`: the record it hands to `upsertRegistroDiaKV`. It always carries the
      requested date; a new date gets `{fecha, barberos: [], egresos}` with no income; an
      existing one keeps its barbers and income and only has its expenses replaced. */
  function WriteEgresos(rs: seq<DayRecord>, fecha: string, egresos: Egresos): (r: DayRecord)
    ensures r.fecha == fecha && r.egresos == Some(egresos)
    ensures Absent(rs, fecha) ==> r.barberos == [] && r.ingresos.None?
    ensures forall i :: FirstWith(rs, fecha, i) ==>
              r.barberos == rs[i].barberos && r.ingresos == rs[i].ingresos
  {
    WithEgresos(FindByFecha(rs, fecha), fecha, egresos)
  }

  /** Sections are independent: merging expenses and then income into what the search
      found gives a record with both new sections, the same date and the original barbers
      (none for a new date). */
  lemma EgresosThenIngresos(existing: Option<DayRecord>, fecha: string, e: Egresos, i: Ingresos)
    requires existing.Some? ==> existing.value.fecha == fecha
    ensures var r := IngresosDb.WithIngresos(Some(WithEgresos(existing, fecha, e)), fecha, i);
            && r.fecha == fecha
            && r.egresos == Some(e) && r.ingresos == Some(i)
            && r.barberos == (if existing.Some? then existing.value.barberos else [])
  {
  }

  /** The same composition through the stores' own search: write expenses for a date, let
      the record reach the list's head, then write income for that date. */
  lemma WriteEgresosThenIngresos(rs: seq<DayRecord>, fecha: string, e: Egresos, i: Ingresos)
    ensures var first := WriteEgresos(rs, fecha, e);
            var second := IngresosDb.WriteIngresos([first] + rs, fecha, i);
            && second.fecha == fecha
            && second.egresos == Some(e) && second.ingresos == Some(i)
            && second.barberos == (if Absent(rs, fecha) then [] else FindByFecha(rs, fecha).value.barberos)
  {
    var first := WriteEgresos(rs, fecha, e);
    assert FirstWith([first] + rs, fecha, 0);
    if !Absent(rs, fecha) {
      var k := FirstWithExists(rs, fecha);
    }
  }
}

=== FILE: egresos_route.dfy ===
/** The pure logic of `GET` and `POST` in the egresos route. */
module EgresosRoute {
  import opened Wrappers
  import opened Money
  import opened Ledger
  import opened Api
  import opened EgresosDb

  /** One payment method's part of the POST body. A truthy value that is not an object
      reads as both fields undefined. */
  datatype PairInput = PairInput(insumos: JsValue, gastos: JsValue)

  /** The POST body; `None` stands for a falsy `efectivo`/`mp`. */
  datatype EgresosBody = EgresosBody(fecha: Option<string>, efectivo: Option<PairInput>, mp: Option<PairInput>)

  /** What GET answers for a day without stored expenses. */
  const ZeroEgresos: Egresos := Egresos(ExpensePair(0, 0), ExpensePair(0, 0))

  predicate PairNumbers(p: PairInput)
  {
    p.insumos.Number? && p.gastos.Number?
  }

  /** `GET /api/egresos?fecha=`: the stored expenses unchanged, or all zeros. */
  function GetEgresos(rs: seq<DayRecord>, fecha: Option<string>): (r: Result<Egresos, ApiError>)
    ensures CheckFecha(fecha).Failure? ==> r == Failure(CheckFecha(fecha).error)
    ensures CheckFecha(fecha).Success? ==> r.Success?
    ensures CheckFecha(fecha).Success? && Absent(rs, fecha.value) ==> r.value == ZeroEgresos
    ensures CheckFecha(fecha).Success? ==>
              forall i :: FirstWith(rs, fecha.value, i) ==>
                r.value == (if rs[i].egresos.Some? then rs[i].egresos.value else ZeroEgresos)
  {
    match CheckFecha(fecha)
    case Failure(e) => Failure(e)
    case Success(f) =>
      match ReadEgresos(rs, f)
      case None => Success(ZeroEgresos)
      case Some(e) => Success(e)
  }

  function ClampPair(p: PairInput): ExpensePair
    requires PairNumbers(p)
  {
    ExpensePair(Max0(p.insumos.n), Max0(p.gastos.n))
  }

  /** `POST /api/egresos`: date present, date shape, both sections present, the four
      amounts numbers; the first failure decides the error and nothing is written.
      Otherwise the record handed to the upsert is the expense merge of the four amounts
      clamped at 0. */
  function PostEgresos(rs: seq<DayRecord>, body: EgresosBody): (r: Result<DayRecord, ApiError>)
    ensures CheckFecha(body.fecha).Failure? ==> r == Failure(CheckFecha(body.fecha).error)
    ensures CheckFecha(body.fecha).Success? && (body.efectivo.None? || body.mp.None?) ==>
              r == Failure(EfectivoYMPRequeridos)
    ensures CheckFecha(body.fecha).Success? && body.efectivo.Some? && body.mp.Some? &&
            !(PairNumbers(body.efectivo.value) && PairNumbers(body.mp.value)) ==>
              r == Failure(CamposNoNumericos)
    ensures r.Success? <==>
              CheckFecha(body.fecha).Success? && body.efectivo.Some? && body.mp.Some? &&
              PairNumbers(body.efectivo.value) && PairNumbers(body.mp.value)
  {
    match CheckFecha(body.fecha)
    case Failure(e) => Failure(e)
    case Success(f) =>
      if body.efectivo.None? || body.mp.None? then Failure(EfectivoYMPRequeridos)
      else if !(PairNumbers(body.efectivo.value) && PairNumbers(body.mp.value)) then Failure(CamposNoNumericos)
      else
        var egresos := Egresos(ClampPair(body.efectivo.value), ClampPair(body.mp.value));
        Success(WriteEgresos(rs, f, egresos))
  }

  /** What an accepted POST stores: every amount as max(0, v) — negatives become 0,
      the rest are kept — on the requested date, with barbers and income untouched. */
  lemma PostEgresosStores(rs: seq<DayRecord>, body: EgresosBody)
    requires PostEgresos(rs, body).Success?
    ensures var rec := PostEgresos(rs, body).value;
            var f := body.fecha.value;
            var ef := body.efectivo.value;
            var mp := body.mp.value;
            && rec.fecha == f
            && rec.egresos == Some(Egresos(ExpensePair(Max0(ef.insumos.n), Max0(ef.gastos.n)),
                                           ExpensePair(Max0(mp.insumos.n), Max0(mp.gastos.n))))
            && (forall i :: FirstWith(rs, f, i) ==> rec.barberos == rs[i].barberos && rec.ingresos == rs[i].ingresos)
            && (Absent(rs, f) ==> rec.barberos == [] && rec.ingresos.None?)
  {
  }

  /** Writing expenses and reading them back: once the record handed to the upsert is the
      first of its date, GET answers exactly the clamped amounts. */
  lemma PostThenGet(rs: seq<DayRecord>, body: EgresosBody)
    requires PostEgresos(rs, body).Success?
    ensures var rec := PostEgresos(rs, body).value;
            GetEgresos([rec] + rs, body.fecha) == Success(rec.egresos.value)
  {
    var rec := PostEgresos(rs, body).value;
    assert FirstWith([rec] + rs, body.fecha.value, 0);
  }
}

=== FILE: fechas.dfy ===
/** `fechas.ts`: strict parsing of a `YYYY-MM-DD` string into a local date and the
    zero-padded formatting back. The local `Date` is modelled by its calendar fields;
    time zones play no part. */
module Fechas {
  import opened Wrappers
  import opened ApiHelpers

  /** A `Date` as the two functions see it: invalid (its time value is NaN) or its local
      calendar fields, with the month counted from 0 as `getMonth()` does. */
  datatype JsDate =
    | InvalidDate
    | LocalDate(year: int, monthIndex: int, day: int, hours: int, minutes: int, seconds: int, millis: int)

  datatype DateError = FormatoInvalido | FechaInvalida {
    function Message(): string
    {
      match this
      case FormatoInvalido => "Formato de fecha inválido. Debe ser YYYY-MM-DD"
      case FechaInvalida => "Fecha inválida"
    }
  }

  // ---- Decimal digits ----

  predicate AllDigits(s: string)
  {
    forall i :: 0 <= i < |s| ==> IsDigit(s[i])
  }

  function DigitValue(c: char): int
    requires IsDigit(c)
  {
    c as int - '0' as int
  }

  function DigitChar(d: int): char
    requires 0 <= d < 10
  {
    (d + '0' as int) as char
  }

  /** `Number(part)` for a part made of ASCII digits; leading zeros are ignored. */
  function DecimalValue(s: string): nat
    requires AllDigits(s)
  {
    if |s| == 0 then 0
    else DecimalValue(s[..|s| - 1]) * 10 + DigitValue(s[|s| - 1])
  }

  /** `String(n)` for a non-negative integer: no leading zeros. */
  function NatToString(n: nat): string
  {
    if n < 10 then [DigitChar(n)] else NatToString(n / 10) + [DigitChar(n % 10)]
  }

  /** `String(n)` for any integer. */
  function IntToString(n: int): string
  {
    if n < 0 then "-" + NatToString(-n) else NatToString(n)
  }

  /** `padStart(2, '0')`. */
  function PadStart2(t: string): (r: string)
    ensures |t| >= 2 ==> r == t
    ensures |t| < 2 ==> |r| == 2 && r[2 - |t|..] == t && forall i :: 0 <= i < 2 - |t| ==> r[i] == '0'
  {
    if |t| >= 2 then t else seq(2 - |t|, _ => '0') + t
  }

  // ---- The proleptic Gregorian calendar of `Date` ----

  predicate IsLeapYear(y: int)
  {
    (y % 4 == 0 && y % 100 != 0) || y % 400 == 0
  }

  /** Length of the month with index `m0` (January is 0). */
  function DaysIn(y: int, m0: int): (n: int)
    requires 0 <= m0 < 12
    ensures 28 <= n <= 31
  {
    if m0 == 1 then (if IsLeapYear(y) then 29 else 28)
    else if m0 == 3 || m0 == 5 || m0 == 8 || m0 == 10 then 30
    else 31
  }

  /** `(y, m0, d)` names a real day. */
  predicate IsCalendarDay(y: int, m0: int, d: int)
  {
    0 <= m0 < 12 && 1 <= d <= DaysIn(y, m0)
  }

  /** The year the `Date` constructor actually uses: 0..99 become 1900..1999
      (ECMAScript, section 21.4.2.1, the `Date` constructor with several arguments). */
  function ConstructorYear(y: int): int
  {
    if 0 <= y <= 99 then 1900 + y else y
  }

  /** How `new Date(y, m0, d)` settles an out-of-range day: a day past the month's end
      carries into the following months, a day below 1 borrows from the previous ones. */
  function Normalize(y: int, m0: int, d: int): (r: (int, int, int))
    requires 0 <= m0 < 12
    ensures IsCalendarDay(r.0, r.1, r.2)
    ensures IsCalendarDay(y, m0, d) ==> r == (y, m0, d)
    ensures r.0 >= y - 1 - (if d < 1 then 1 - d else 0)
    decreases (if d < 1 then 1 else 0), (if d < 1 then 1 - d else d)
  {
    if d < 1 then
      var py := if m0 == 0 then y - 1 else y;
      var pm := if m0 == 0 then 11 else m0 - 1;
      Normalize(py, pm, d + DaysIn(py, pm))
    else if d > DaysIn(y, m0) then
      var ny := if m0 == 11 then y + 1 else y;
      var nm := if m0 == 11 then 0 else m0 + 1;
      Normalize(ny, nm, d - DaysIn(y, m0))
    else (y, m0, d)
  }

  // ---- crearFechaLocal ----

  function YearOf(s: string): nat
    requires HasDateShape(s)
  {
    DecimalValue(s[0..4])
  }

  function MonthOf(s: string): nat
    requires HasDateShape(s)
  {
    DecimalValue(s[5..7])
  }

  function DayOf(s: string): nat
    requires HasDateShape(s)
  {
    DecimalValue(s[8..10])
  }

  /** What `crearFechaLocal` accepts, stated on the calendar: the shape, a year of at
      least 100, a month 1..12 and a day within that month of that year. */
  predicate IsValidFecha(s: string)
  {
    && HasDateShape(s)
    && YearOf(s) >= 100
    && 1 <= MonthOf(s) <= 12
    && IsCalendarDay(YearOf(s), MonthOf(s) - 1, DayOf(s))
  }

  /** The constructor's year is never the two-digit year it was given. */
  lemma TwoDigitYearNeverMatches(y: int, m0: int, d: int)
    requires 0 <= m0 < 12 && d >= 0
    ensures 0 <= y <= 99 ==> Normalize(ConstructorYear(y), m0, d).0 != y
  {
  }

  /** `crearFechaLocal`: the regex, then the month range, then the round trip through
      `new Date(year, month - 1, day)` that catches every adjusted date. */
  function CrearFechaLocal(s: string): (r: Result<JsDate, DateError>)
    ensures r == Failure(FormatoInvalido) <==> !HasDateShape(s)
    ensures r.Success? <==> IsValidFecha(s)
    ensures r.Success? ==> ValidateDateFormat(s)
    ensures r.Success? ==> r.value == LocalDate(YearOf(s), MonthOf(s) - 1, DayOf(s), 0, 0, 0, 0)
  {
    if !ValidateDateFormat(s) then Failure(FormatoInvalido)
    else
      var year := YearOf(s);
      var month := MonthOf(s);
      var day := DayOf(s);
      if month < 1 || month > 12 then Failure(FechaInvalida)
      else
        var n := Normalize(ConstructorYear(year), month - 1, day);
        TwoDigitYearNeverMatches(year, month - 1, day);
        if n.0 != year || n.1 != month - 1 || n.2 != day then Failure(FechaInvalida)
        else Success(LocalDate(n.0, n.1, n.2, 0, 0, 0, 0))
  }

  // ---- fechaToString ----

  /** `fechaToString`: throws for an invalid date; otherwise the year as `String` gives it
      and the month and day padded to two digits. */
  function FechaToString(date: JsDate): (r: Result<string, DateError>)
    ensures date.InvalidDate? <==> r == Failure(FechaInvalida)
  {
    match date
    case InvalidDate => Failure(FechaInvalida)
    case LocalDate(y, m0, d, _, _, _, _) =>
      Success(IntToString(y) + "-" + PadStart2(IntToString(m0 + 1)) + "-" + PadStart2(IntToString(d)))
  }

  // ---- The round trip ----

  function Pow10(n: nat): (p: nat)
    ensures p >= 1
  {
    if n == 0 then 1 else 10 * Pow10(n - 1)
  }

  lemma DigitCharValue(c: char)
    requires IsDigit(c)
    ensures DigitChar(DigitValue(c)) == c
  {
  }

  /** A digit string is worth its first digit times its place value plus the rest. */
  lemma {:induction false} DecimalHead(s: string)
    requires AllDigits(s) && |s| >= 1
    ensures DecimalValue(s) == DigitValue(s[0]) * Pow10(|s| - 1) + DecimalValue(s[1..])
  {
    if |s| == 1 {
      assert s[..0] == [];
      assert s[1..] == [];
    } else {
      var p := s[..|s| - 1];
      assert AllDigits(p) && AllDigits(s[1..]) && AllDigits(p[1..]);
      DecimalHead(p);
      assert p[0] == s[0];
      assert s[1..][..|s[1..]| - 1] == p[1..];
      assert s[1..][|s[1..]| - 1] == s[|s| - 1];
      var a, q, r, d := DigitValue(s[0]), Pow10(|p| - 1), DecimalValue(p[1..]), DigitValue(s[|s| - 1]);
      assert DecimalValue(s) == (a * q + r) * 10 + d;
      assert DecimalValue(s[1..]) == r * 10 + d;
      assert Pow10(|s| - 1) == q * 10;
      ShiftPlace(a, q, r, d);
    }
  }

  lemma ShiftPlace(a: int, q: int, r: int, d: int)
    ensures (a * q + r) * 10 + d == a * (q * 10) + (r * 10 + d)
  {
  }

  /** A digit string is worth less than the next power of ten. */
  lemma {:induction false} DecimalBound(s: string)
    requires AllDigits(s)
    ensures DecimalValue(s) < Pow10(|s|)
  {
    if |s| > 0 {
      DecimalBound(s[..|s| - 1]);
    }
  }

  /** Without a leading zero the value has exactly as many digits as the string. */
  lemma LeadingDigit(s: string)
    requires AllDigits(s) && |s| >= 1
    ensures s[0] != '0' ==> DecimalValue(s) >= Pow10(|s| - 1)
    ensures s[0] == '0' ==> DecimalValue(s) < Pow10(|s| - 1)
  {
    DecimalHead(s);
    DecimalBound(s[1..]);
  }

  /** `String(Number(s))` gives `s` back when `s` has no leading zero. */
  lemma {:induction false} NatToStringOfDigits(s: string)
    requires AllDigits(s) && |s| >= 1
    requires |s| == 1 || s[0] != '0'
    ensures NatToString(DecimalValue(s)) == s
  {
    var p := s[..|s| - 1];
    var c := s[|s| - 1];
    var n := DecimalValue(s);
    if |s| == 1 {
      assert p == [];
      assert DecimalValue(p) == 0;
      assert n == DecimalValue(p) * 10 + DigitValue(c);
      assert n == DigitValue(c);
      DigitCharValue(c);
      assert s == [c];
    } else {
      assert p[0] == s[0];
      LeadingDigit(p);
      NatToStringOfDigits(p);
      assert n == DecimalValue(p) * 10 + DigitValue(c);
      assert n / 10 == DecimalValue(p) && n % 10 == DigitValue(c);
      DigitCharValue(c);
      assert s == p + [c];
    }
  }

  /** A two-digit month or day of at least 1 comes back padded exactly as written. */
  lemma TwoDigitsRoundTrip(t: string)
    requires |t| == 2 && AllDigits(t) && DecimalValue(t) >= 1
    ensures PadStart2(IntToString(DecimalValue(t))) == t
  {
    if t[0] == '0' {
      DecimalHead(t);
      assert t[1..] == [t[1]];
      assert DecimalValue(t[1..]) == DigitValue(t[1]) by {
        assert t[1..][..0] == [];
      }
      NatToStringOfDigits(t[1..]);
      assert t == "0" + t[1..];
    } else {
      NatToStringOfDigits(t);
    }
  }

  lemma ShapeParts(s: string)
    requires HasDateShape(s)
    ensures AllDigits(s[0..4]) && AllDigits(s[5..7]) && AllDigits(s[8..10])
    ensures s == s[0..4] + "-" + s[5..7] + "-" + s[8..10]
  {
  }

  /** `fechaToString(crearFechaLocal(s)) == s` for every accepted `s` whose year has four
      significant digits (1000..9999). */
  lemma FechaRoundTrip(s: string)
    requires IsValidFecha(s) && YearOf(s) >= 1000
    ensures CrearFechaLocal(s).Success?
    ensures FechaToString(CrearFechaLocal(s).value) == Success(s)
  {
    ShapeParts(s);
    LeadingDigit(s[0..4]);
    assert s[0..4][0] != '0';
    NatToStringOfDigits(s[0..4]);
    TwoDigitsRoundTrip(s[5..7]);
    TwoDigitsRoundTrip(s[8..10]);
  }

  // ---- Worked examples ----

  lemma TwoDigitValue(t: string)
    requires |t| == 2 && AllDigits(t)
    ensures DecimalValue(t) == 10 * DigitValue(t[0]) + DigitValue(t[1])
  {
    DecimalHead(t);
    assert t[1..][..0] == [];
    assert DecimalValue(t[1..]) == DigitValue(t[1]);
  }

  lemma FourDigitValue(t: string)
    requires |t| == 4 && AllDigits(t)
    ensures DecimalValue(t) == 1000 * DigitValue(t[0]) + 100 * DigitValue(t[1]) + 10 * DigitValue(t[2]) + DigitValue(t[3])
  {
    DecimalHead(t);
    DecimalHead(t[1..]);
    TwoDigitValue(t[2..]);
    assert t[1..][1..] == t[2..];
  }

  /** The parsed year, month and day of a string of the date shape, digit by digit. */
  lemma Fields(s: string)
    requires HasDateShape(s)
    ensures YearOf(s) == 1000 * DigitValue(s[0]) + 100 * DigitValue(s[1]) + 10 * DigitValue(s[2]) + DigitValue(s[3])
    ensures MonthOf(s) == 10 * DigitValue(s[5]) + DigitValue(s[6])
    ensures DayOf(s) == 10 * DigitValue(s[8]) + DigitValue(s[9])
  {
    ShapeParts(s);
    FourDigitValue(s[0..4]);
    TwoDigitValue(s[5..7]);
    TwoDigitValue(s[8..10]);
  }

  /** The digit a character stands for, without a precondition. */
  function Ord(c: char): int
  {
    c as int - '0' as int
  }

  /** A concrete string of the date shape, its fields given. */
  lemma Parsed(s: string, y: int, m: int, d: int)
    requires |s| == 10 && s[4] == '-' && s[7] == '-'
    requires forall i :: 0 <= i < 10 && i != 4 && i != 7 ==> s[i] in "0123456789"
    requires y == 1000 * Ord(s[0]) + 100 * Ord(s[1]) + 10 * Ord(s[2]) + Ord(s[3])
    requires m == 10 * Ord(s[5]) + Ord(s[6])
    requires d == 10 * Ord(s[8]) + Ord(s[9])
    ensures HasDateShape(s) && YearOf(s) == y && MonthOf(s) == m && DayOf(s) == d
  {
    Fields(s);
  }

  /** Day overflow: 2024-02-30 is refused. */
  lemma February30()
    ensures CrearFechaLocal("2024-02-30") == Failure(FechaInvalida)
  {
    Parsed("2024-02-30", 2024, 2, 30);
  }

  /** Feb 29 exists only in leap years: refused in 2023 ... */
  lemma February29NonLeap()
    ensures CrearFechaLocal("2023-02-29") == Failure(FechaInvalida)
  {
    Parsed("2023-02-29", 2023, 2, 29);
    assert !IsLeapYear(2023);
    assert DaysIn(2023, 1) == 28;
    assert !IsValidFecha("2023-02-29");
  }

  /** ... accepted in 2024. */
  lemma February29Leap()
    ensures CrearFechaLocal("2024-02-29") == Success(LocalDate(2024, 1, 29, 0, 0, 0, 0))
  {
    Parsed("2024-02-29", 2024, 2, 29);
    assert IsLeapYear(2024);
    assert IsValidFecha("2024-02-29");
  }

  /** Month 13 and day 00 are refused as invalid dates, not as malformed strings. */
  lemma RangeExamples()
    ensures CrearFechaLocal("2024-13-01") == Failure(FechaInvalida)
    ensures CrearFechaLocal("2024-01-00") == Failure(FechaInvalida)
  {
    Parsed("2024-13-01", 2024, 13, 1);
    Parsed("2024-01-00", 2024, 1, 0);
  }

  /** Years 0000..0099 are refused: the constructor reads them as 1900..1999. */
  lemma TwoDigitYearExample()
    ensures CrearFechaLocal("0099-01-01") == Failure(FechaInvalida)
  {
    Parsed("0099-01-01", 99, 1, 1);
  }

  /** The year is not padded: a year below 1000 is accepted ... */
  lemma Year999Accepted()
    ensures CrearFechaLocal("0999-01-01") == Success(LocalDate(999, 0, 1, 0, 0, 0, 0))
  {
    Parsed("0999-01-01", 999, 1, 1);
    assert IsValidFecha("0999-01-01");
  }

  /** ... but formatted back without its leading zero, so it does not survive the round trip. */
  lemma YearNotPadded()
    ensures FechaToString(LocalDate(999, 0, 1, 0, 0, 0, 0)) == Success("999-01-01")
  {
    assert NatToString(9) == "9";
    assert NatToString(99) == "99";
    assert NatToString(999) == "999";
    assert IntToString(999) == "999";
    assert IntToString(1) == "1";
    assert PadStart2("1") == "01";
    assert "999" + "-" + "01" + "-" + "01" == "999-01-01";
  }
}

=== FILE: ingresos_db.dfy ===
/** `ingresosFromDB`: the recomputed cut revenue of a day and the income section's
    read and merge-write. */
module IngresosDb {
  import opened Wrappers
  import opened Money
  import opened Ledger

  /** `servicio.cantidad * servicio.precio`: only the price stored in the line is used.
      A split-shape line has neither field, and `undefined * undefined` is NaN. */
  function LineAmount(s: ServiceLine): (r: JsNum)
    ensures r.Num? <==> s.PricedLine?
  {
    match s
    case PricedLine(_, cantidad, precio) => Num(cantidad * precio)
    case SplitLine(_, _, _) => NaN
  }

  /** `cortesEspeciales.reduce((acc, c) => acc + c.monto, 0)`. */
  function SumMontos(cs: seq<SpecialCut>): int
  {
    if |cs| == 0 then 0 else SumMontos(cs[..|cs| - 1]) + cs[|cs| - 1].monto
  }

  /** What a barber's special cuts add: nothing when the field is absent. */
  function SpecialTotal(b: BarberDay): int
  {
    match b.cortesEspeciales
    case Some(cs) => SumMontos(cs)
    case None => 0
  }

  // ---- Reference sum: plain integers over records whose lines all carry a price ----

  predicate LinesPriced(ss: seq<ServiceLine>)
  {
    forall j :: 0 <= j < |ss| ==> ss[j].PricedLine?
  }

  predicate BarbersPriced(bs: seq<BarberDay>)
  {
    forall i :: 0 <= i < |bs| ==> LinesPriced(bs[i].servicios)
  }

  /** Σ cantidad × precio over the priced lines. */
  function LinesTotal(ss: seq<ServiceLine>): int
  {
    if |ss| == 0 then 0
    else LinesTotal(ss[..|ss| - 1]) + (if ss[|ss| - 1].PricedLine? then ss[|ss| - 1].cantidad * ss[|ss| - 1].precio else 0)
  }

  /** Σ over barbers of their lines' total plus their special cuts. */
  function BarbersTotal(bs: seq<BarberDay>): int
  {
    if |bs| == 0 then 0
    else BarbersTotal(bs[..|bs| - 1]) + LinesTotal(bs[|bs| - 1].servicios) + SpecialTotal(bs[|bs| - 1])
  }

  /** The cut revenue of a list of barbers: the integer sum when every line is priced,
      NaN as soon as one line lacks `cantidad`/`precio`. */
  function DayAmount(bs: seq<BarberDay>): JsNum
  {
    if BarbersPriced(bs) then Num(BarbersTotal(bs)) else NaN
  }

  function LinesAmount(ss: seq<ServiceLine>): JsNum
  {
    if LinesPriced(ss) then Num(LinesTotal(ss)) else NaN
  }

  /** The value `calcularCorteEfectivo(fecha)` resolves to, over the records the store read. */
  function CorteEfectivo(rs: seq<DayRecord>, fecha: string): JsNum
  {
    match FindByFecha(rs, fecha)
    case None => Num(0)
    case Some(d) => DayAmount(d.barberos)
  }

  lemma LinesAmountStep(ss: seq<ServiceLine>, j: int)
    requires 0 <= j < |ss|
    ensures LinesAmount(ss[..j + 1]) == LinesAmount(ss[..j]).Plus(LineAmount(ss[j]))
  {
    assert ss[..j + 1][..j] == ss[..j];
    assert LinesPriced(ss[..j + 1]) <==> LinesPriced(ss[..j]) && ss[j].PricedLine? by {
      assert forall k :: 0 <= k < j ==> ss[..j + 1][k] == ss[..j][k];
      assert ss[..j + 1][j] == ss[j];
    }
  }

  lemma DayAmountStep(bs: seq<BarberDay>, i: int)
    requires 0 <= i < |bs|
    ensures DayAmount(bs[..i + 1]) ==
            DayAmount(bs[..i]).Plus(LinesAmount(bs[i].servicios)).Plus(Num(SpecialTotal(bs[i])))
  {
    assert bs[..i + 1][..i] == bs[..i];
    assert BarbersPriced(bs[..i + 1]) <==> BarbersPriced(bs[..i]) && LinesPriced(bs[i].servicios) by {
      assert forall k :: 0 <= k < i ==> bs[..i + 1][k] == bs[..i][k];
      assert bs[..i + 1][i] == bs[i];
    }
  }

  /** `calcularCorteEfectivo`: the nested `forEach` accumulation over the first record of
      the date. 0 when no record matches or its barber list is empty; otherwise
      Σ cantidad × precio of every line of every barber plus Σ monto of the special cuts,
      or NaN when some line is of the split shape. No price configuration is consulted. */
  method CalcularCorteEfectivo(rs: seq<DayRecord>, fecha: string) returns (total: JsNum)
    ensures total == CorteEfectivo(rs, fecha)
    ensures Absent(rs, fecha) ==> total == Num(0)
    ensures forall i :: FirstWith(rs, fecha, i) && BarbersPriced(rs[i].barberos) ==>
              total == Num(BarbersTotal(rs[i].barberos))
    ensures forall i :: FirstWith(rs, fecha, i) && !BarbersPriced(rs[i].barberos) ==> total == NaN
  {
    var found := FindByFecha(rs, fecha);
    if found.None? || |found.value.barberos| == 0 {
      return Num(0);
    }
    var bs := found.value.barberos;
    total := Num(0);
    for i := 0 to |bs|
      invariant total == DayAmount(bs[..i])
    {
      var ss := bs[i].servicios;
      var before := total;
      for j := 0 to |ss|
        invariant total == before.Plus(LinesAmount(ss[..j]))
      {
        LinesAmountStep(ss, j);
        total := total.Plus(LineAmount(ss[j]));
      }
      assert ss[..|ss|] == ss;
      if bs[i].cortesEspeciales.Some? {
        total := total.Plus(Num(SumMontos(bs[i].cortesEspeciales.value)));
      }
      DayAmountStep(bs, i);
    }
    assert bs[..|bs|] == bs;
  }

  /** A day whose priced lines all have count 0 and that has no special cuts is worth 0. */
  lemma {:induction false} ZeroCountDayIsZero(bs: seq<BarberDay>)
    requires BarbersPriced(bs)
    requires forall i :: 0 <= i < |bs| ==> bs[i].cortesEspeciales.None?
    requires forall i, j :: 0 <= i < |bs| && 0 <= j < |bs[i].servicios| ==>
               bs[i].servicios[j].cantidad == 0
    ensures DayAmount(bs) == Num(0)
  {
    if |bs| > 0 {
      var last := bs[|bs| - 1];
      assert BarbersPriced(bs[..|bs| - 1]);
      ZeroCountLines(last.servicios);
      ZeroCountDayIsZero(bs[..|bs| - 1]);
    }
  }

  lemma {:induction false} ZeroCountLines(ss: seq<ServiceLine>)
    requires LinesPriced(ss)
    requires forall j :: 0 <= j < |ss| ==> ss[j].cantidad == 0
    ensures LinesTotal(ss) == 0
  {
    if |ss| > 0 {
      ZeroCountLines(ss[..|ss| - 1]);
    }
  }

  /** `readIngresosKV`: the income section of the first record of the date, or null when
      there is no such record or it has no income section. */
  function ReadIngresos(rs: seq<DayRecord>, fecha: string): (r: Option<Ingresos>)
    ensures Absent(rs, fecha) ==> r.None?
    ensures forall i :: FirstWith(rs, fecha, i) ==> r == rs[i].ingresos
  {
    match FindByFecha(rs, fecha)
    case None => None
    case Some(d) => d.ingresos
  }

  /** The create-or-merge step of `writeIngresosKV`, given what the search found. */
  function WithIngresos(existing: Option<DayRecord>, fecha: string, ingresos: Ingresos): DayRecord
  {
    match existing
    case None => DayRecord(fecha, [], Some(ingresos), None)
    case Some(d) => d.(ingresos := Some(ingresos))
  }

  /** `writeIngresosKV`: the record it hands to `upsertRegistroDiaKV`. A new date gets
      `{fecha, barberos: [], ingresos}` with no expenses; an existing one keeps its date,
      barbers and expenses and only has its income replaced. */
  function WriteIngresos(rs: seq<DayRecord>, fecha: string, ingresos: Ingresos): (r: DayRecord)
    ensures r.fecha == fecha && r.ingresos == Some(ingresos)
    ensures Absent(rs, fecha) ==> r.barberos == [] && r.egresos.None?
    ensures forall i :: FirstWith(rs, fecha, i) ==>
              r.barberos == rs[i].barberos && r.egresos == rs[i].egresos
  {
    WithIngresos(FindByFecha(rs, fecha), fecha, ingresos)
  }
}

=== FILE: ingresos_route.dfy ===
/** The pure logic of `GET` and `POST` in the ingresos route: date checks, defaults for a
    day without stored income, the sum check against the recomputed cut revenue, and the
    clamp of stored amounts. */
module IngresosRoute {
  import opened Wrappers
  import opened Money
  import opened Ledger
  import opened Api
  import opened IngresosDb

  /** The fields of the POST body the handler destructures. */
  datatype IngresosBody = IngresosBody(
    fecha: Option<string>,
    cortesEfectivo: JsValue,
    cortesMP: JsValue,
    insumos: JsValue,
    color: JsValue,
    bebidas: JsValue)

  /** The JSON answered by GET. `corteEfectivo` is NaN (serialized as null) for a day
      holding split-shape lines. */
  datatype IngresosView = IngresosView(
    corteEfectivo: JsNum,
    cortesEfectivo: int,
    cortesMP: int,
    insumos: int,
    color: int,
    bebidas: int)

  /** The `typeof … !== 'number'` check over the five amounts. */
  predicate AllNumbers(b: IngresosBody)
  {
    b.cortesEfectivo.Number? && b.cortesMP.Number? && b.insumos.Number? && b.color.Number? && b.bebidas.Number?
  }

  function OrZero(x: Option<int>): int
  {
    match x
    case Some(v) => v
    case None => 0
  }

  /** `GET /api/ingresos?fecha=`: the recomputed cut revenue always replaces the stored
      one; without stored income every other amount is 0; with it, the stored amounts are
      returned and a missing `cortesEfectivo`/`cortesMP` reads as 0. */
  function GetIngresos(rs: seq<DayRecord>, fecha: Option<string>): (r: Result<IngresosView, ApiError>)
    ensures CheckFecha(fecha).Failure? ==> r == Failure(CheckFecha(fecha).error)
    ensures CheckFecha(fecha).Success? ==> r.Success? && r.value.corteEfectivo == CorteEfectivo(rs, fecha.value)
    ensures CheckFecha(fecha).Success? && ReadIngresos(rs, fecha.value).None? ==>
              r == Success(IngresosView(CorteEfectivo(rs, fecha.value), 0, 0, 0, 0, 0))
    ensures CheckFecha(fecha).Success? && ReadIngresos(rs, fecha.value).Some? ==>
              var stored := ReadIngresos(rs, fecha.value).value;
              && r.value.cortesEfectivo == (if stored.cortesEfectivo.Some? then stored.cortesEfectivo.value else 0)
              && r.value.cortesMP == (if stored.cortesMP.Some? then stored.cortesMP.value else 0)
              && r.value.insumos == stored.insumos && r.value.color == stored.color
              && r.value.bebidas == stored.bebidas
  {
    match CheckFecha(fecha)
    case Failure(e) => Failure(e)
    case Success(f) =>
      var corteEfectivo := CorteEfectivo(rs, f);
      match ReadIngresos(rs, f)
      case None => Success(IngresosView(corteEfectivo, 0, 0, 0, 0, 0))
      case Some(ing) =>
        Success(IngresosView(corteEfectivo, OrZero(ing.cortesEfectivo), OrZero(ing.cortesMP),
                             ing.insumos, ing.color, ing.bebidas))
  }

  /** The income the handler builds once every check has passed: the recomputed revenue
      and every submitted amount clamped at 0. */
  function ClampedIngresos(corteEfectivo: int, b: IngresosBody): Ingresos
    requires AllNumbers(b)
  {
    Ingresos(corteEfectivo, Some(Max0(b.cortesEfectivo.n)), Some(Max0(b.cortesMP.n)),
             Max0(b.insumos.n), Max0(b.color.n), Max0(b.bebidas.n))
  }

  /** `POST /api/ingresos`: the checks in order date present, date shape, number types,
      `cortesEfectivo + cortesMP === corteEfectivo` on the raw amounts; the first to fail
      decides the error and nothing is written. On success, the record handed to the
      upsert is the income merge of the clamped amounts. */
  function PostIngresos(rs: seq<DayRecord>, body: IngresosBody): (r: Result<DayRecord, ApiError>)
    ensures CheckFecha(body.fecha).Failure? ==> r == Failure(CheckFecha(body.fecha).error)
    ensures CheckFecha(body.fecha).Success? && !AllNumbers(body) ==> r == Failure(CamposNoNumericos)
    ensures r.Success? <==>
              && CheckFecha(body.fecha).Success? && AllNumbers(body)
              && CorteEfectivo(rs, body.fecha.value) == Num(body.cortesEfectivo.n + body.cortesMP.n)
    ensures CheckFecha(body.fecha).Success? && AllNumbers(body) && r.Failure? ==>
              r.error == SumaNoCoincide(body.cortesEfectivo.n, body.cortesMP.n, CorteEfectivo(rs, body.fecha.value))
  {
    match CheckFecha(body.fecha)
    case Failure(e) => Failure(e)
    case Success(f) =>
      if !AllNumbers(body) then Failure(CamposNoNumericos)
      else
        var corteEfectivo := CorteEfectivo(rs, f);
        var suma := body.cortesEfectivo.n + body.cortesMP.n;
        if corteEfectivo != Num(suma) then
          Failure(SumaNoCoincide(body.cortesEfectivo.n, body.cortesMP.n, corteEfectivo))
        else
          Success(WriteIngresos(rs, f, ClampedIngresos(corteEfectivo.n, body)))
  }

  /** What an accepted POST stores: the requested date, the recomputed revenue, every other
      amount as max(0, input), and the day's barbers and expenses untouched. */
  lemma PostIngresosStores(rs: seq<DayRecord>, body: IngresosBody)
    requires PostIngresos(rs, body).Success?
    ensures var rec := PostIngresos(rs, body).value;
            var f := body.fecha.value;
            && rec.fecha == f
            && rec.ingresos.Some?
            && Num(rec.ingresos.value.corteEfectivo) == CorteEfectivo(rs, f)
            && rec.ingresos.value.cortesEfectivo == Some(Max0(body.cortesEfectivo.n))
            && rec.ingresos.value.cortesMP == Some(Max0(body.cortesMP.n))
            && rec.ingresos.value.insumos == Max0(body.insumos.n)
            && rec.ingresos.value.color == Max0(body.color.n)
            && rec.ingresos.value.bebidas == Max0(body.bebidas.n)
            && (forall i :: FirstWith(rs, f, i) ==> rec.barberos == rs[i].barberos && rec.egresos == rs[i].egresos)
            && (Absent(rs, f) ==> rec.barberos == [] && rec.egresos.None?)
  {
  }

  /** The sum check runs before the clamp: the stored split covers the revenue but exceeds
      it exactly when one submitted split amount was negative. */
  lemma StoredSplitCoversCorte(rs: seq<DayRecord>, body: IngresosBody)
    requires PostIngresos(rs, body).Success?
    ensures var ing := PostIngresos(rs, body).value.ingresos.value;
            && ing.cortesEfectivo.value + ing.cortesMP.value >= ing.corteEfectivo
            && (ing.cortesEfectivo.value + ing.cortesMP.value == ing.corteEfectivo <==>
                  body.cortesEfectivo.n >= 0 && body.cortesMP.n >= 0)
  {
  }

  /** A record holding a split-shape line has NaN revenue, and NaN equals no sum: every
      POST for that day is refused with the sum error. */
  lemma SplitLinesBlockPost(rs: seq<DayRecord>, body: IngresosBody)
    requires CheckFecha(body.fecha).Success? && AllNumbers(body)
    requires CorteEfectivo(rs, body.fecha.value) == NaN
    ensures PostIngresos(rs, body) == Failure(SumaNoCoincide(body.cortesEfectivo.n, body.cortesMP.n, NaN))
  {
  }

  /** The one-day store of the example below is worth 12000. */
  lemma OneCutDay(rs: seq<DayRecord>)
    requires rs == [DayRecord("2024-01-15", [BarberDay("2024-01-15", "Joaco", [PricedLine(Corte, 1, 12000)], None, None, None)], None, None)]
    ensures CorteEfectivo(rs, "2024-01-15") == Num(12000)
  {
    var b := rs[0].barberos[0];
    assert FirstWith(rs, "2024-01-15", 0);
    assert [b][..0] == [];
    assert b.servicios[..0] == [];
    assert b.servicios[..1] == b.servicios;
    assert LinesTotal(b.servicios) == 12000;
    assert BarbersTotal([b]) == 12000;
  }

  /** A concrete day: one priced cut at 12000. Submitting -5000 cash and 17000 Mercado Pago
      passes the raw sum check and is stored as 0 and 17000. */
  lemma NegativeOffsetIsStoredAsZero(rs: seq<DayRecord>, body: IngresosBody)
    requires rs == [DayRecord("2024-01-15", [BarberDay("2024-01-15", "Joaco", [PricedLine(Corte, 1, 12000)], None, None, None)], None, None)]
    requires body == IngresosBody(Some("2024-01-15"), Number(-5000), Number(17000), Number(0), Number(0), Number(0))
    ensures PostIngresos(rs, body).Success?
    ensures PostIngresos(rs, body).value.ingresos == Some(Ingresos(12000, Some(0), Some(17000), 0, 0, 0))
  {
    ApiHelpers.SampleDateShape();
    OneCutDay(rs);
    assert CheckFecha(body.fecha) == Success("2024-01-15");
    assert AllNumbers(body);
    var ing := ClampedIngresos(12000, body);
    assert ing == Ingresos(12000, Some(0), Some(17000), 0, 0, 0);
    assert PostIngresos(rs, body) == Success(WriteIngresos(rs, "2024-01-15", ing));
  }

  /** Writing income and reading it back: once the record handed to the upsert is the
      first of its date, GET answers the revenue as it stood before the write (the merge
      keeps the day's barbers) and the clamped amounts that were posted. */
  lemma PostThenGet(rs: seq<DayRecord>, body: IngresosBody)
    requires PostIngresos(rs, body).Success?
    ensures var rec := PostIngresos(rs, body).value;
            GetIngresos([rec] + rs, body.fecha) ==
              Success(IngresosView(CorteEfectivo(rs, body.fecha.value), Max0(body.cortesEfectivo.n),
                                   Max0(body.cortesMP.n), Max0(body.insumos.n), Max0(body.color.n),
                                   Max0(body.bebidas.n)))
  {
    var rec := PostIngresos(rs, body).value;
    var f := body.fecha.value;
    assert FirstWith([rec] + rs, f, 0);
    assert CorteEfectivo([rec] + rs, f) == DayAmount(rec.barberos);
    if Absent(rs, f) {
      assert rec.barberos == [];
      assert DayAmount(rec.barberos) == Num(0);
    } else {
      var i := FirstWithExists(rs, f);
      assert rec.barberos == rs[i].barberos;
    }
  }
}

=== FILE: kv_list.dfy ===
/** The Redis-style list behind `@vercel/kv`, as a sequence whose head is the list's head:
    `lpush` prepends, `lrange key 0 -1` reads everything, `del` resets to the empty list. */
module KvList {
  import opened Wrappers

  /** One element as `lrange` hands it back: text still to be decoded, or a value the
      client already decoded (`None` stands for a falsy one such as null, 0 or false). */
  datatype Item<T> = Text(text: string) | Decoded(value: Option<T>)

  /** What `JSON.parse` does with a text: it throws, yields a falsy value
      (`null`, `0`, `false`, `""`), or yields a value. */
  datatype Parse<T> = Throws | Falsy | Parsed(value: T)

  /** `lpush`: the new element becomes the head, the rest is untouched. */
  function LPush<T>(list: seq<T>, x: T): (r: seq<T>)
    ensures |r| == |list| + 1
    ensures r[0] == x && r[1..] == list
  {
    [x] + list
  }

  /** `serialize` followed by `parse` gives the value back: the round trip
      `JSON.parse(JSON.stringify(v))` is assumed to satisfy for stored values. */
  ghost predicate RoundTrips<T(!new)>(parse: string -> Parse<T>, serialize: T -> string)
  {
    forall v :: parse(serialize(v)) == Parsed(v)
  }

  /** The per-element step of the read: parse text (a throw becomes null), keep a decoded
      value as it is. `None` is the falsy value that the following `filter(Boolean)` drops. */
  function DecodeItem<T>(it: Item<T>, parse: string -> Parse<T>): (r: Option<T>)
    ensures it.Decoded? ==> r == it.value
    ensures it.Text? ==> (r.Some? <==> parse(it.text).Parsed?)
    ensures it.Text? && r.Some? ==> r.value == parse(it.text).value
  {
    match it
    case Decoded(v) => v
    case Text(s) =>
      match parse(s)
      case Parsed(v) => Some(v)
      case _ => None
  }

  /** The whole read: map every element through `DecodeItem`, then drop the falsy results. */
  function DecodeAll<T>(raw: seq<Item<T>>, parse: string -> Parse<T>): (r: seq<T>)
    ensures |r| <= |raw|
    ensures forall v :: v in r ==> exists i :: 0 <= i < |raw| && DecodeItem(raw[i], parse) == Some(v)
    ensures (forall i :: 0 <= i < |raw| ==> DecodeItem(raw[i], parse).Some?) ==> |r| == |raw|
  {
    if |raw| == 0 then []
    else
      var rest := DecodeAll(raw[1..], parse);
      assert forall v :: v in rest ==> exists i :: 0 <= i < |raw| && DecodeItem(raw[i], parse) == Some(v) by {
        forall v | v in rest
          ensures exists i :: 0 <= i < |raw| && DecodeItem(raw[i], parse) == Some(v)
        {
          var j :| 0 <= j < |raw[1..]| && DecodeItem(raw[1..][j], parse) == Some(v);
          assert raw[1..][j] == raw[j + 1];
        }
      }
      match DecodeItem(raw[0], parse)
      case Some(v) => [v] + rest
      case None => rest
  }

  /** Reading a concatenation reads each part in turn: surviving elements keep list order. */
  lemma {:induction false} DecodeAllAppend<T>(a: seq<Item<T>>, b: seq<Item<T>>, parse: string -> Parse<T>)
    ensures DecodeAll(a + b, parse) == DecodeAll(a, parse) + DecodeAll(b, parse)
  {
    if |a| == 0 {
      assert a + b == b;
    } else {
      assert (a + b)[1..] == a[1..] + b;
      assert (a + b)[0] == a[0];
      DecodeAllAppend(a[1..], b, parse);
    }
  }

  /** An element whose text fails to parse, or parses to a falsy value, is silently
      dropped wherever it sits in the list; nothing else changes. */
  lemma DecodeAllDropsUnparsable<T>(a: seq<Item<T>>, s: string, b: seq<Item<T>>, parse: string -> Parse<T>)
    requires !parse(s).Parsed?
    ensures DecodeAll(a + [Text(s)] + b, parse) == DecodeAll(a + b, parse)
  {
    DecodeAllAppend(a + [Text(s)], b, parse);
    DecodeAllAppend(a, [Text(s)], parse);
    DecodeAllAppend(a, b, parse);
    assert DecodeAll([Text(s)], parse) == [];
  }

  /** An element the client already decoded passes through as it is, in place. */
  lemma DecodeAllKeepsDecoded<T>(a: seq<Item<T>>, v: T, b: seq<Item<T>>, parse: string -> Parse<T>)
    ensures DecodeAll(a + [Decoded(Some(v))] + b, parse) == DecodeAll(a, parse) + [v] + DecodeAll(b, parse)
  {
    DecodeAllAppend(a + [Decoded(Some(v))], b, parse);
    DecodeAllAppend(a, [Decoded(Some(v))], parse);
    assert DecodeAll([Decoded(Some(v))], parse) == [v];
  }

  /** Pushing a serialized value and reading back yields that value first, then the old read. */
  lemma PushThenRead<T(!new)>(list: seq<Item<T>>, v: T, parse: string -> Parse<T>, serialize: T -> string)
    requires RoundTrips(parse, serialize)
    ensures DecodeAll(LPush(list, Text(serialize(v))), parse) == [v] + DecodeAll(list, parse)
  {
    assert LPush(list, Text(serialize(v)))[1..] == list;
    assert parse(serialize(v)) == Parsed(v);
  }
}

=== FILE: ledger.dfy ===
/** The day record stored in the `registrosDia` list and the search every reader uses. */
module Ledger {
  import opened Wrappers

  /** `Servicio`: a plain cut or a cut with beard. */
  datatype ServiceKind = Corte | CorteConBarba

  /** A service line of one barber on one day. The repository's revisions store two shapes:
      counts split by payment method (`{tipo, efectivo, mercado_pago}`) and a single count
      with the unit price frozen at write time (`{tipo, cantidad, precio}`). */
  datatype ServiceLine =
    | SplitLine(tipo: ServiceKind, efectivo: int, mercadoPago: int)
    | PricedLine(tipo: ServiceKind, cantidad: int, precio: int)

  /** A flat-amount transaction of one barber. */
  datatype SpecialCut = SpecialCut(monto: int)

  /** `RegistroCortes`: one barber's entry inside a day record. */
  datatype BarberDay = BarberDay(
    fecha: string,
    barbero: string,
    servicios: seq<ServiceLine>,
    cortesEspeciales: Option<seq<SpecialCut>>,
    retiroEfectivo: Option<int>,
    retiroMP: Option<int>)

  /** The income section of a day. `cortesEfectivo`/`cortesMP` are absent in older records. */
  datatype Ingresos = Ingresos(
    corteEfectivo: int,
    cortesEfectivo: Option<int>,
    cortesMP: Option<int>,
    insumos: int,
    color: int,
    bebidas: int)

  /** Supplies and other expenses paid through one payment method. */
  datatype ExpensePair = ExpensePair(insumos: int, gastos: int)

  /** The expense section of a day: cash and Mercado Pago. */
  datatype Egresos = Egresos(efectivo: ExpensePair, mp: ExpensePair)

  /** `RegistroCortesDia`: everything stored for one date. */
  datatype DayRecord = DayRecord(
    fecha: string,
    barberos: seq<BarberDay>,
    ingresos: Option<Ingresos>,
    egresos: Option<Egresos>)

  /** `i` is the position of the first record carrying `fecha`. */
  predicate FirstWith(rs: seq<DayRecord>, fecha: string, i: int)
  {
    0 <= i < |rs| && rs[i].fecha == fecha && forall j :: 0 <= j < i ==> rs[j].fecha != fecha
  }

  /** No record carries `fecha`. */
  predicate Absent(rs: seq<DayRecord>, fecha: string)
  {
    forall i :: 0 <= i < |rs| ==> rs[i].fecha != fecha
  }

  /** `registros.find((r) => r.fecha === fecha)`: the FIRST record carrying that date. */
  function FindByFecha(rs: seq<DayRecord>, fecha: string): (r: Option<DayRecord>)
    ensures r.None? <==> Absent(rs, fecha)
    ensures r.Some? ==> r.value.fecha == fecha
    ensures forall i :: FirstWith(rs, fecha, i) ==> r == Some(rs[i])
  {
    if |rs| == 0 then None
    else if rs[0].fecha == fecha then Some(rs[0])
    else
      var r := FindByFecha(rs[1..], fecha);
      assert forall i :: FirstWith(rs, fecha, i) ==> FirstWith(rs[1..], fecha, i - 1) by {
        forall i | FirstWith(rs, fecha, i) ensures FirstWith(rs[1..], fecha, i - 1) {
          assert i > 0;
          forall j | 0 <= j < i - 1 ensures rs[1..][j].fecha != fecha {
            assert rs[1..][j] == rs[j + 1];
          }
        }
      }
      assert Absent(rs[1..], fecha) ==> Absent(rs, fecha) by {
        if Absent(rs[1..], fecha) {
          forall i | 0 <= i < |rs| ensures rs[i].fecha != fecha {
            if i > 0 { assert rs[i] == rs[1..][i - 1]; }
          }
        }
      }
      r
  }

  /** A record that carries `fecha` has a first such position. */
  lemma FirstWithExists(rs: seq<DayRecord>, fecha: string) returns (i: int)
    requires !Absent(rs, fecha)
    ensures FirstWith(rs, fecha, i)
  {
    i := 0;
    while rs[i].fecha != fecha
      invariant 0 <= i < |rs|
      invariant forall j :: 0 <= j < i ==> rs[j].fecha != fecha
      invariant exists k :: i <= k < |rs| && rs[k].fecha == fecha
      decreases |rs| - i
    {
      i := i + 1;
    }
  }

  /** Records appended after one that already carries the date are never consulted:
      a later duplicate with the same date is ignored. */
  lemma {:induction false} FindIgnoresLaterDuplicates(rs: seq<DayRecord>, later: seq<DayRecord>, fecha: string)
    requires exists i :: 0 <= i < |rs| && rs[i].fecha == fecha
    ensures FindByFecha(rs + later, fecha) == FindByFecha(rs, fecha)
  {
    if rs[0].fecha != fecha {
      assert (rs + later)[1..] == rs[1..] + later;
      var i :| 0 <= i < |rs| && rs[i].fecha == fecha;
      assert rs[1..][i - 1].fecha == fecha;
      FindIgnoresLaterDuplicates(rs[1..], later, fecha);
    }
  }
}

=== FILE: money.dfy ===
/** Amounts as the source's JavaScript numbers behave in this model. */
module Money {

  /** A JavaScript number restricted to what the ledger produces: a whole amount, or NaN,
      which is what arithmetic on a field the value does not have (`undefined`) yields. */
  datatype JsNum = Num(n: int) | NaN {

    /** JavaScript `+`: NaN on either side absorbs. */
    function Plus(other: JsNum): (r: JsNum)
      ensures r.Num? <==> Num? && other.Num?
      ensures r.Num? ==> r.n == n + other.n
    {
      if Num? && other.Num? then Num(n + other.n) else NaN
    }
  }

  /** `Math.max(0, x)`: the clamp the routes apply to every stored amount. */
  function Max0(x: int): (r: int)
    ensures r >= 0
    ensures x >= 0 ==> r == x
    ensures x < 0 ==> r == 0
  {
    if x < 0 then 0 else x
  }
}

=== FILE: precios.dfy ===
/** `preciosFromDB` and the precios route: the two current unit prices under the
    `precios` key. */
module Precios {
  import opened Wrappers
  import opened Api

  datatype Precios = Precios(corte: int, corteYBarba: int)

  /** `PRECIOS_DEFAULT`. */
  const PreciosDefault: Precios := Precios(12000, 13000)

  /** The key's content: `None` when nothing (or a falsy value) is stored. */
  type PreciosStore = Option<Precios>

  /** What a read returns and what the store holds afterwards. */
  datatype Read = Read(precios: Precios, store: PreciosStore)

  /** `writePreciosKV`: `set` overwrites the key. */
  function WritePrecios(store: PreciosStore, p: Precios): (s: PreciosStore)
    ensures s == Some(p)
  {
    Some(p)
  }

  /** `readPreciosKV`: the stored prices unchanged, or — on an empty key — the defaults,
      which are also written. */
  function ReadPrecios(store: PreciosStore): (r: Read)
    ensures store.Some? ==> r.precios == store.value && r.store == store
    ensures store.None? ==> r.precios == Precios(12000, 13000) && r.store == Some(Precios(12000, 13000))
  {
    match store
    case Some(p) => Read(p, store)
    case None => Read(PreciosDefault, WritePrecios(store, PreciosDefault))
  }

  /** A second read after any read returns the same prices and leaves the store alone. */
  lemma ReadTwice(store: PreciosStore)
    ensures var first := ReadPrecios(store);
            ReadPrecios(first.store) == Read(first.precios, first.store)
  {
  }

  /** A write followed by a read returns what was written. */
  lemma WriteThenRead(store: PreciosStore, p: Precios)
    ensures ReadPrecios(WritePrecios(store, p)).precios == p
  {
  }

  /** The POST body's two fields. */
  datatype PreciosBody = PreciosBody(corte: JsValue, corteYBarba: JsValue)

  /** `POST /api/precios`: both fields numbers first, then neither negative (`< 0`, so
      zero passes); the accepted prices are exactly the submitted ones. */
  function ValidatePrecios(body: PreciosBody): (r: Result<Precios, ApiError>)
    ensures !(body.corte.Number? && body.corteYBarba.Number?) ==> r == Failure(PreciosInvalidos)
    ensures body.corte.Number? && body.corteYBarba.Number? && (body.corte.n < 0 || body.corteYBarba.n < 0) ==>
              r == Failure(PreciosNegativos)
    ensures r.Success? <==> body.corte.Number? && body.corteYBarba.Number? && body.corte.n >= 0 && body.corteYBarba.n >= 0
    ensures r.Success? ==> r.value == Precios(body.corte.n, body.corteYBarba.n)
  {
    if !(body.corte.Number? && body.corteYBarba.Number?) then Failure(PreciosInvalidos)
    else if body.corte.n < 0 || body.corteYBarba.n < 0 then Failure(PreciosNegativos)
    else Success(Precios(body.corte.n, body.corteYBarba.n))
  }

  /** The store after a POST: written only when the body is accepted. */
  function PostPrecios(store: PreciosStore, body: PreciosBody): (s: PreciosStore)
    ensures ValidatePrecios(body).Failure? ==> s == store
    ensures ValidatePrecios(body).Success? ==> ReadPrecios(s).precios == ValidatePrecios(body).value
  {
    match ValidatePrecios(body)
    case Success(p) => WritePrecios(store, p)
    case Failure(_) => store
  }

  /** `GET /api/precios` answers what the read returns; for a store already holding prices
      it is what was last accepted by POST. */
  lemma PostThenGet(store: PreciosStore, corte: int, corteYBarba: int)
    requires corte >= 0 && corteYBarba >= 0
    ensures ReadPrecios(PostPrecios(store, PreciosBody(Number(corte), Number(corteYBarba)))).precios ==
            Precios(corte, corteYBarba)
  {
  }
}

=== FILE: registros_dia.dfy ===
/** `registrosDiaFromDB`: the `registrosDia` list of serialized day records. */
module RegistrosDia {
  import opened Wrappers
  import opened KvList
  import opened Ledger

  /** `addRegistroDiaKV`: `lpush` of the serialized record. Nothing is replaced. */
  function AddRegistroDia(list: seq<Item<DayRecord>>, r: DayRecord, serialize: DayRecord -> string): (l: seq<Item<DayRecord>>)
    ensures |l| == |list| + 1
    ensures l[0] == Text(serialize(r))
    ensures l[1..] == list
  {
    LPush(list, Text(serialize(r)))
  }

  /** `readRegistrosDiaKV`: decode every element, drop the ones that fail or are falsy. */
  function ReadRegistrosDia(list: seq<Item<DayRecord>>, parse: string -> Parse<DayRecord>): (rs: seq<DayRecord>)
    ensures |rs| <= |list|
    ensures forall v :: v in rs ==> exists i :: 0 <= i < |list| && DecodeItem(list[i], parse) == Some(v)
  {
    DecodeAll(list, parse)
  }

  /** How many records of a read carry the date. */
  function CountFecha(rs: seq<DayRecord>, fecha: string): nat
  {
    if |rs| == 0 then 0 else (if rs[0].fecha == fecha then 1 else 0) + CountFecha(rs[1..], fecha)
  }

  /** An add followed by a read yields the new record first and the previous read after it. */
  lemma AddThenRead(list: seq<Item<DayRecord>>, r: DayRecord, parse: string -> Parse<DayRecord>, serialize: DayRecord -> string)
    requires RoundTrips(parse, serialize)
    ensures ReadRegistrosDia(AddRegistroDia(list, r, serialize), parse) == [r] + ReadRegistrosDia(list, parse)
  {
    PushThenRead(list, r, parse, serialize);
  }

  /** Adding never replaces: a record of a date that is already stored coexists with the
      old one, one more record carries that date, and the search now finds the new one. */
  lemma AddKeepsDuplicates(list: seq<Item<DayRecord>>, r: DayRecord, parse: string -> Parse<DayRecord>, serialize: DayRecord -> string)
    requires RoundTrips(parse, serialize)
    ensures var before := ReadRegistrosDia(list, parse);
            var after := ReadRegistrosDia(AddRegistroDia(list, r, serialize), parse);
            && CountFecha(after, r.fecha) == CountFecha(before, r.fecha) + 1
            && (forall x :: x in before ==> x in after)
            && FindByFecha(after, r.fecha) == Some(r)
  {
    AddThenRead(list, r, parse, serialize);
    var before := ReadRegistrosDia(list, parse);
    var after := [r] + before;
    assert after[1..] == before;
    assert FirstWith(after, r.fecha, 0);
  }
}

=== FILE: registros_page.dfy ===
/** `registros-dia/page.tsx`: the cash and Mercado Pago totals of a day at the page's own
    price table, and the newest-first order of the list. */
module RegistrosPage {
  import opened Money
  import opened Ledger
  import opened ApiHelpers
  import opened Fechas

  // ---- calcularTotales ----

  /** The page's fixed price table: 11000 a cut, 12000 a cut with beard. */
  function PagePrice(k: ServiceKind): int
  {
    match k
    case Corte => 11000
    case CorteConBarba => 12000
  }

  /** Which count of a split line a sum reads; `Both` is the reference for the day total. */
  datatype Channel = Cash | Mp | Both

  function Count(s: ServiceLine, ch: Channel): int
    requires s.SplitLine?
  {
    match ch
    case Cash => s.efectivo
    case Mp => s.mercadoPago
    case Both => s.efectivo + s.mercadoPago
  }

  /** `s.efectivo * precio` (or `s.mercado_pago * precio`): a priced line has neither
      field, and `undefined * precio` is NaN. */
  function LineValue(s: ServiceLine, ch: Channel): (r: JsNum)
    ensures r.Num? <==> s.SplitLine?
    ensures s.SplitLine? ==> r.n == Count(s, ch) * PagePrice(s.tipo)
  {
    if s.SplitLine? then Num(Count(s, ch) * PagePrice(s.tipo)) else NaN
  }

  predicate LinesSplit(ss: seq<ServiceLine>)
  {
    forall j :: 0 <= j < |ss| ==> ss[j].SplitLine?
  }

  predicate BarbersSplit(bs: seq<BarberDay>)
  {
    forall i :: 0 <= i < |bs| ==> LinesSplit(bs[i].servicios)
  }

  // ---- Reference sums: plain integers, counting the split lines only ----

  function LinesSum(ss: seq<ServiceLine>, ch: Channel): int
  {
    if |ss| == 0 then 0
    else
      var s := ss[|ss| - 1];
      LinesSum(ss[..|ss| - 1], ch) + (if s.SplitLine? then Count(s, ch) * PagePrice(s.tipo) else 0)
  }

  function BarbersSum(bs: seq<BarberDay>, ch: Channel): int
  {
    if |bs| == 0 then 0 else BarbersSum(bs[..|bs| - 1], ch) + LinesSum(bs[|bs| - 1].servicios, ch)
  }

  function LinesAcc(ss: seq<ServiceLine>, ch: Channel): JsNum
  {
    if LinesSplit(ss) then Num(LinesSum(ss, ch)) else NaN
  }

  function DayAcc(bs: seq<BarberDay>, ch: Channel): JsNum
  {
    if BarbersSplit(bs) then Num(BarbersSum(bs, ch)) else NaN
  }

  /** The `{efectivo, mp}` pair the page shows for a day. */
  datatype Totales = Totales(efectivo: JsNum, mp: JsNum)

  /** The totals of a day as a value, for stating properties across calls. */
  function Totals(dia: DayRecord): Totales
  {
    Totales(DayAcc(dia.barberos, Cash), DayAcc(dia.barberos, Mp))
  }

  /** `const total = efectivo + mp`. */
  function Total(t: Totales): JsNum
  {
    t.efectivo.Plus(t.mp)
  }

  lemma LinesAccStep(ss: seq<ServiceLine>, j: int, ch: Channel)
    requires 0 <= j < |ss|
    ensures LinesAcc(ss[..j + 1], ch) == LinesAcc(ss[..j], ch).Plus(LineValue(ss[j], ch))
  {
    assert ss[..j + 1][..j] == ss[..j];
    assert LinesSplit(ss[..j + 1]) <==> LinesSplit(ss[..j]) && ss[j].SplitLine? by {
      assert forall k :: 0 <= k < j ==> ss[..j + 1][k] == ss[..j][k];
      assert ss[..j + 1][j] == ss[j];
    }
  }

  lemma DayAccStep(bs: seq<BarberDay>, i: int, ch: Channel)
    requires 0 <= i < |bs|
    ensures DayAcc(bs[..i + 1], ch) == DayAcc(bs[..i], ch).Plus(LinesAcc(bs[i].servicios, ch))
  {
    assert bs[..i + 1][..i] == bs[..i];
    assert BarbersSplit(bs[..i + 1]) <==> BarbersSplit(bs[..i]) && LinesSplit(bs[i].servicios) by {
      assert forall k :: 0 <= k < i ==> bs[..i + 1][k] == bs[..i][k];
      assert bs[..i + 1][i] == bs[i];
    }
  }

  /** `calcularTotales`: the nested `forEach` accumulating cash and Mercado Pago separately.
      When every line is of the split shape, cash is Σ efectivo × price and MP is
      Σ mercado_pago × price over every line of every barber; a single priced line makes
      both NaN. Special cuts and withdrawals are not read. */
  method CalcularTotales(dia: DayRecord) returns (t: Totales)
    ensures t == Totals(dia)
    ensures BarbersSplit(dia.barberos) ==>
              t == Totales(Num(BarbersSum(dia.barberos, Cash)), Num(BarbersSum(dia.barberos, Mp)))
    ensures !BarbersSplit(dia.barberos) ==> t == Totales(NaN, NaN)
  {
    var bs := dia.barberos;
    var efectivo := Num(0);
    var mp := Num(0);
    for i := 0 to |bs|
      invariant efectivo == DayAcc(bs[..i], Cash)
      invariant mp == DayAcc(bs[..i], Mp)
    {
      var ss := bs[i].servicios;
      var e0, m0 := efectivo, mp;
      for j := 0 to |ss|
        invariant efectivo == e0.Plus(LinesAcc(ss[..j], Cash))
        invariant mp == m0.Plus(LinesAcc(ss[..j], Mp))
      {
        LinesAccStep(ss, j, Cash);
        LinesAccStep(ss, j, Mp);
        efectivo := efectivo.Plus(LineValue(ss[j], Cash));
        mp := mp.Plus(LineValue(ss[j], Mp));
      }
      assert ss[..|ss|] == ss;
      DayAccStep(bs, i, Cash);
      DayAccStep(bs, i, Mp);
    }
    assert bs[..|bs|] == bs;
    t := Totales(efectivo, mp);
  }

  lemma {:induction false} LinesBoth(ss: seq<ServiceLine>)
    ensures LinesSum(ss, Both) == LinesSum(ss, Cash) + LinesSum(ss, Mp)
  {
    if |ss| > 0 {
      LinesBoth(ss[..|ss| - 1]);
      var s := ss[|ss| - 1];
      if s.SplitLine? {
        assert Count(s, Both) * PagePrice(s.tipo) ==
               Count(s, Cash) * PagePrice(s.tipo) + Count(s, Mp) * PagePrice(s.tipo);
      }
    }
  }

  lemma {:induction false} BarbersBoth(bs: seq<BarberDay>)
    ensures BarbersSum(bs, Both) == BarbersSum(bs, Cash) + BarbersSum(bs, Mp)
  {
    if |bs| > 0 {
      BarbersBoth(bs[..|bs| - 1]);
      LinesBoth(bs[|bs| - 1].servicios);
    }
  }

  /** The day total the page shows is every cut of the day, whichever way it was paid,
      at the page's prices; NaN as soon as one line is of the priced shape. */
  lemma TotalCountsEveryCut(dia: DayRecord)
    ensures BarbersSplit(dia.barberos) ==> Total(Totals(dia)) == Num(BarbersSum(dia.barberos, Both))
    ensures !BarbersSplit(dia.barberos) ==> Total(Totals(dia)) == NaN
  {
    BarbersBoth(dia.barberos);
  }

  /** The totals are additive over the barber list: splitting a day's barbers in two and
      summing each part gives the sums of the whole day. */
  lemma {:induction false} BarbersSumAppend(a: seq<BarberDay>, b: seq<BarberDay>, ch: Channel)
    ensures BarbersSum(a + b, ch) == BarbersSum(a, ch) + BarbersSum(b, ch)
  {
    if |b| > 0 {
      assert (a + b)[..|a + b| - 1] == a + b[..|b| - 1];
      assert (a + b)[|a + b| - 1] == b[|b| - 1];
      BarbersSumAppend(a, b[..|b| - 1], ch);
    } else {
      assert a + b == a;
    }
  }

  /** A barber whose lines all carry zero counts adds nothing to either total. */
  lemma {:induction false} ZeroCountsAddNothing(ss: seq<ServiceLine>, ch: Channel)
    requires LinesSplit(ss)
    requires forall j :: 0 <= j < |ss| ==> ss[j].efectivo == 0 && ss[j].mercadoPago == 0
    ensures LinesSum(ss, ch) == 0
  {
    if |ss| > 0 {
      ZeroCountsAddNothing(ss[..|ss| - 1], ch);
    }
  }

  /** Barbers whose lines all carry zero counts add nothing to either total. */
  lemma {:induction false} ZeroCountBarbers(bs: seq<BarberDay>, ch: Channel)
    requires BarbersSplit(bs)
    requires forall i, j :: 0 <= i < |bs| && 0 <= j < |bs[i].servicios| ==>
               bs[i].servicios[j].efectivo == 0 && bs[i].servicios[j].mercadoPago == 0
    ensures BarbersSum(bs, ch) == 0
  {
    if |bs| > 0 {
      var last := bs[|bs| - 1];
      assert BarbersSplit(bs[..|bs| - 1]);
      ZeroCountsAddNothing(last.servicios, ch);
      ZeroCountBarbers(bs[..|bs| - 1], ch);
    }
  }

  /** A day with no barbers, or whose split lines all carry zero counts, shows (0, 0). */
  lemma ZeroCountDayTotals(dia: DayRecord)
    requires BarbersSplit(dia.barberos)
    requires forall i, j :: 0 <= i < |dia.barberos| && 0 <= j < |dia.barberos[i].servicios| ==>
               dia.barberos[i].servicios[j].efectivo == 0 && dia.barberos[i].servicios[j].mercadoPago == 0
    ensures Totals(dia) == Totales(Num(0), Num(0))
  {
    ZeroCountBarbers(dia.barberos, Cash);
    ZeroCountBarbers(dia.barberos, Mp);
  }

  // ---- The newest-first order: `new Date(b.fecha).getTime() - new Date(a.fecha).getTime()` ----

  /** A date string whose `new Date(...)` is a real calendar day: the shape, a month 1..12
      and a day that exists in that month. */
  predicate Sortable(s: string)
  {
    HasDateShape(s) && 1 <= MonthOf(s) <= 12 && IsCalendarDay(YearOf(s), MonthOf(s) - 1, DayOf(s))
  }

  predicate AllSortable(rs: seq<DayRecord>)
  {
    forall i :: 0 <= i < |rs| ==> Sortable(rs[i].fecha)
  }

  function YearLength(y: int): int
  {
    if IsLeapYear(y) then 366 else 365
  }

  /** Days from 0000-01-01 to the first of January of `y` in the proleptic Gregorian calendar. */
  function DaysBeforeYear(y: nat): int
  {
    if y == 0 then 0 else DaysBeforeYear(y - 1) + YearLength(y - 1)
  }

  /** Days from the first of January of `y` to the first day of month `m0` (0-based). */
  function DaysBeforeMonth(y: int, m0: nat): (n: int)
    requires m0 <= 12
    ensures n >= 0
  {
    if m0 == 0 then 0 else DaysBeforeMonth(y, m0 - 1) + DaysIn(y, m0 - 1)
  }

  /** Days from 0000-01-01 to the date. */
  function DayIndex(s: string): int
    requires Sortable(s)
  {
    DaysBeforeYear(YearOf(s)) + DaysBeforeMonth(YearOf(s), MonthOf(s) - 1) + DayOf(s) - 1
  }

  /** `new Date(fecha).getTime()`: a date-only ISO string is UTC midnight, counted in
      milliseconds from 1970-01-01. */
  function TimeValue(s: string): int
    requires Sortable(s)
  {
    (DayIndex(s) - DaysBeforeYear(1970)) * 86400000
  }

  /** `a` is an earlier calendar day than `b`. */
  predicate Before(a: string, b: string)
    requires Sortable(a) && Sortable(b)
  {
    || YearOf(a) < YearOf(b)
    || (YearOf(a) == YearOf(b) && MonthOf(a) < MonthOf(b))
    || (YearOf(a) == YearOf(b) && MonthOf(a) == MonthOf(b) && DayOf(a) < DayOf(b))
  }

  lemma {:induction false} MonthsFitInYear(y: int)
    ensures DaysBeforeMonth(y, 12) == YearLength(y)
  {
    assert DaysBeforeMonth(y, 1) == 31;
    assert DaysBeforeMonth(y, 2) == 31 + DaysIn(y, 1);
    assert DaysBeforeMonth(y, 3) == 62 + DaysIn(y, 1);
    assert DaysBeforeMonth(y, 4) == 92 + DaysIn(y, 1);
    assert DaysBeforeMonth(y, 5) == 123 + DaysIn(y, 1);
    assert DaysBeforeMonth(y, 6) == 153 + DaysIn(y, 1);
    assert DaysBeforeMonth(y, 7) == 184 + DaysIn(y, 1);
    assert DaysBeforeMonth(y, 8) == 215 + DaysIn(y, 1);
    assert DaysBeforeMonth(y, 9) == 245 + DaysIn(y, 1);
    assert DaysBeforeMonth(y, 10) == 276 + DaysIn(y, 1);
    assert DaysBeforeMonth(y, 11) == 306 + DaysIn(y, 1);
  }

  /** A whole month `m0` fits before the start of any later month `n`. */
  lemma {:induction false} MonthBeforeLater(y: int, m0: nat, n: nat)
    requires m0 < n <= 12
    ensures DaysBeforeMonth(y, m0) + DaysIn(y, m0) <= DaysBeforeMonth(y, n)
    decreases n
  {
    if n > m0 + 1 {
      MonthBeforeLater(y, m0, n - 1);
    }
  }

  /** A whole year `y` fits before the start of any later year `z`. */
  lemma {:induction false} YearBeforeLater(y: nat, z: nat)
    requires y < z
    ensures DaysBeforeYear(y) + YearLength(y) <= DaysBeforeYear(z)
    decreases z
  {
    if z > y + 1 {
      YearBeforeLater(y, z - 1);
    }
  }

  /** Every day of a year lies before the start of the next year. */
  lemma DayWithinYear(s: string)
    requires Sortable(s)
    ensures DayIndex(s) < DaysBeforeYear(YearOf(s)) + YearLength(YearOf(s))
  {
    var y, m0 := YearOf(s), MonthOf(s) - 1;
    MonthsFitInYear(y);
    if m0 < 11 {
      MonthBeforeLater(y, m0, 12);
    }
  }

  /** An earlier calendar day has the smaller time value. */
  lemma EarlierDayEarlierTime(a: string, b: string)
    requires Sortable(a) && Sortable(b) && Before(a, b)
    ensures TimeValue(a) < TimeValue(b)
  {
    if YearOf(a) < YearOf(b) {
      DayWithinYear(a);
      YearBeforeLater(YearOf(a), YearOf(b));
    } else if MonthOf(a) < MonthOf(b) {
      MonthBeforeLater(YearOf(a), MonthOf(a) - 1, MonthOf(b) - 1);
    }
    assert DayIndex(a) < DayIndex(b);
  }

  /** The time values order dates exactly as the calendar does (both directions), so the
      page's comparator is a calendar comparison. */
  lemma TimeOrderIsCalendarOrder(a: string, b: string)
    requires Sortable(a) && Sortable(b)
    ensures TimeValue(a) < TimeValue(b) <==> Before(a, b)
    ensures TimeValue(a) == TimeValue(b) <==> !Before(a, b) && !Before(b, a)
  {
    if Before(a, b) {
      EarlierDayEarlierTime(a, b);
    } else if Before(b, a) {
      EarlierDayEarlierTime(b, a);
    }
  }

  /** Newest first: no record has a smaller time value than a record after it. */
  predicate NewestFirst(rs: seq<DayRecord>)
  {
    AllSortable(rs) &&
    forall i, j :: 0 <= i < j < |rs| ==> TimeValue(rs[i].fecha) >= TimeValue(rs[j].fecha)
  }

  /** A record no older than the head of a newest-first list can go in front of it. */
  lemma ConsNewestFirst(h: DayRecord, t: seq<DayRecord>)
    requires Sortable(h.fecha) && NewestFirst(t)
    requires |t| > 0 ==> TimeValue(h.fecha) >= TimeValue(t[0].fecha)
    ensures NewestFirst([h] + t)
  {
    var r := [h] + t;
    assert forall i :: 1 <= i < |r| ==> r[i] == t[i - 1];
  }

  lemma TailNewestFirst(s: seq<DayRecord>)
    requires |s| > 0 && NewestFirst(s)
    ensures NewestFirst(s[1..])
  {
    assert forall i :: 0 <= i < |s| - 1 ==> s[1..][i] == s[i + 1];
  }

  lemma ConsMultiset(s: seq<DayRecord>, t: seq<DayRecord>, x: DayRecord)
    requires |s| > 0 && multiset(t) == multiset(s[1..]) + multiset{x}
    ensures multiset([s[0]] + t) == multiset(s) + multiset{x}
  {
    assert s == [s[0]] + s[1..];
  }

  /** Places `x` in front of the first record that is not newer than it. */
  function Insert(x: DayRecord, s: seq<DayRecord>): (r: seq<DayRecord>)
    requires Sortable(x.fecha) && NewestFirst(s)
    ensures multiset(r) == multiset(s) + multiset{x}
    ensures |r| == |s| + 1
    ensures NewestFirst(r)
    ensures |s| == 0 ==> r == [x]
    ensures |s| > 0 ==> r[0] == x || r[0] == s[0]
  {
    if |s| == 0 then [x]
    else if TimeValue(x.fecha) >= TimeValue(s[0].fecha) then
      ConsNewestFirst(x, s);
      [x] + s
    else
      TailNewestFirst(s);
      var t := Insert(x, s[1..]);
      ConsNewestFirst(s[0], t);
      ConsMultiset(s, t, x);
      [s[0]] + t
  }

  /** `registros.sort(...)` with the newest date first. The comparator is consistent on
      real calendar dates, so the sort's result is determined: a permutation of the list
      with no record older than one after it. */
  function SortNewestFirst(rs: seq<DayRecord>): (r: seq<DayRecord>)
    requires AllSortable(rs)
    ensures multiset(r) == multiset(rs)
    ensures |r| == |rs|
    ensures NewestFirst(r)
  {
    if |rs| == 0 then []
    else
      assert AllSortable(rs[1..]) by {
        assert forall i :: 0 <= i < |rs| - 1 ==> rs[1..][i] == rs[i + 1];
      }
      assert rs == [rs[0]] + rs[1..];
      Insert(rs[0], SortNewestFirst(rs[1..]))
  }

  /** In the sorted list no record's date comes earlier in the calendar than a later one's. */
  lemma SortedByCalendar(rs: seq<DayRecord>, i: int, j: int)
    requires AllSortable(rs)
    requires 0 <= i < j < |rs|
    ensures var r := SortNewestFirst(rs); !Before(r[i].fecha, r[j].fecha)
  {
    var r := SortNewestFirst(rs);
    TimeOrderIsCalendarOrder(r[i].fecha, r[j].fecha);
  }
}

=== FILE: wrappers.dfy ===
/** Failure-compatible helper datatypes shared by every module of the model. */
module Wrappers {

  /** A value that may be absent: JavaScript's `undefined`/`null` for an optional field. */
  datatype Option<+T> = None | Some(value: T)

  /** The outcome of an operation that can be refused with an error. */
  datatype Result<+R, +E> = Success(value: R) | Failure(error: E)
}
